=== FILE: README.md ===
# Chat game conversation engine — a Dafny model

This project models the conversation engine of a small browser chat game, in two versions:

- **`Game`** models the engine in `src/lib/game.ts`, and **`GameProperties`** proves properties of it. `start()` does the following:
  - It writes the prompt "Hello! What is your name?".
  - For every utterance of the user, it cancels any computer speech and speaks the utterance in the user's voice.
  - It takes the first utterance as the user's name and answers "Hello, <name>!.".
  - It hands every later utterance to the first responder module that accepts it, and keeps only the response stream of the latest utterance ("switch-to-latest").
  - It merges the greeting and the responses, drops empty strings, and speaks each remaining string as the computer unless muted. It then writes the string to the transcript.
  - The engine keeps a mute flag and a lazily filled voice cache as its own fields. The services record holds closures over them: the mute setter, the two voice setters and `getVoices`.
- **`Responders`** abstracts the responder registry. A registry is an ordered list of modules, each with an acceptance predicate. The matcher returns the accepting modules in registry order, and the engine uses the first of them.
- **`LegacyGame`** models the older engine in `src/js/lib/game.ts`, which:
  - writes the same prompt;
  - greets the first input with "Hello, <name>!" (no period);
  - echoes every later input as "You  wrote: <input>" (two spaces);
  - answers `greet()` with "Hello <name>".
- **`Common`** holds `Option`, the prompt text and a few generic sequence lemmas.

### How the reactive pipeline is modelled

The RxJS pipeline is modelled as a pure state machine. `Game.Step` takes the engine state and one event and returns the new state and the list of effects, in order. `Game.Run` folds `Step` over a trace of events, and `Game.Session` is `start()` followed by a trace.

Events:
- an utterance;
- a value or an error from the response stream opened for the utterance at a given position (its "generation");
- a call of one of the services.

Effects:
- cancelling computer speech;
- speaking as the user;
- speaking as the computer;
- writing to the transcript;
- opening a response stream with a given responder;
- an unhandled error that ends the merged output stream;
- asking the synthesizer for its voices;
- returning the voice list.

Most effects are calls the source makes on its collaborators: the synthesizer, the two speaking users, the output subject and a responder module. Two are not calls. The unhandled error is RxJS reporting an error that reached a subscriber with no error handler. The returned voice list is the value `getVoices` returns to its caller.

Switch-to-latest is a test that a value comes from the current stream, made on generations. A value is published only if it comes from the stream of the most recent utterance, that utterance is the second or later, and the merged stream has not ended.

### Two ways the merged output stream ends

- **An utterance no responder module accepts.** Line 118 destructures the first element of the array `getResponders` returns. When no module accepts, that array is empty and `responderModule` is `undefined`, so the call `getResponse$` on line 119 throws inside `switchMap`. The comment `// FIXME: combine all matched` on line 117 shows the authors planned to handle the match list more fully, but the code as written has no branch for an empty one. The error ends the merged output stream: nothing is ever written or spoken as the computer again. The input tap keeps going, so later utterances are still cancelled and spoken as the user. `Game.Route` models this, and `GameProperties.UnmatchedUtteranceEndsOutput` states the consequence.
- **An error in the live response stream.** `switchMap` forwards it to the merged stream, which has no `catchError`, so it ends the merged stream in the same way (`Game.OnResponseError`).

## Model

| member | source | states |
|---|---|---|
| Responders.Matches | src/lib/game.ts:118 | a module index is in the match list iff the module accepts the utterance; the list is strictly increasing, so it is in registry order |
| Responders.FirstResponder | src/lib/game.ts:118 | the result is an accepting module with no accepting module before it; the result is None exactly when no module accepts |
| Game.Publish | src/lib/game.ts:124-131 | an empty string or an ended stream yields no effect at all; otherwise the string is written once; the computer says nothing when muted and otherwise exactly what is written, each string just before it is written; no empty output |
| Game.Hear | src/lib/game.ts:98-102 | an utterance first cancels computer speech, then is spoken as the user, and is the only thing the user says; nothing is written and the computer says nothing, muted or not |
| Game.Flows | src/lib/game.ts:106-122 | the first utterance only sets the name and publishes the greeting; a later one only routes, opening a stream for its first accepting module at generation 2 or later, or ending the merged stream when none accepts; the computer's speech is the transcript unless muted |
| Game.TakeName | src/lib/game.ts:106-113 | the name becomes the utterance and nothing else in the state changes; the greeting "Hello, name!." is published through the merged subscriber |
| Game.Route | src/lib/game.ts:114-126 | on an open stream there is exactly one effect: the stream opened for utterance k, which carries its text and goes to the first accepting module, or, with no accepting module, the unhandled error of generation k that ends the merged stream; once the merged stream has ended, nothing is routed and nothing changes; nothing is written here |
| Game.OnUtterance | src/lib/game.ts:96-122 | every utterance is first cancelled-and-spoken as the user; only the first sets the name; only later ones open a stream, with generation at least 2; the transcript gets the greeting exactly for the first utterance |
| Game.OnResponseValue | src/lib/game.ts:114-131 | a value is published iff it comes from the live stream and is non-empty; values from superseded streams produce no effect |
| Game.OnResponseError | src/lib/game.ts:114-131 | an error from the live stream ends the merged stream; one from a superseded stream changes nothing |
| Game.SetIsMuted | src/lib/game.ts:67-69 | sets the mute flag and leaves the rest of the state unchanged |
| Game.SetUserVoiceService | src/lib/game.ts:64-66 | sets the user's voice, unchecked against the cache, and leaves the rest unchanged |
| Game.SetComputerVoiceService | src/lib/game.ts:61-63 | sets the computer's voice and leaves the rest unchanged |
| Game.GetVoicesService | src/lib/game.ts:53-60 | asks the synthesizer exactly when the cache is empty; returns the cache; a non-empty cache is returned unchanged; an empty report leaves the cache empty, so the next call asks again |
| Game.OnGetVoices | src/lib/game.ts:53-60 | the effects are the fetch, exactly when the cache was empty, followed by the return of the updated cache to the caller; nothing is written or spoken |
| Game.Step | src/lib/game.ts:53-131 | counts utterances and sets the name only on the first; the two voices change only through their setters; the stream ends only on an unmatched later utterance or a live error; the transcript gets exactly what `Published` prescribes, and the computer says the same unless muted, when it says nothing; every opened stream is the first match for a second-or-later utterance, and a matched later utterance on an open stream opens one; once the stream has ended nothing is routed and no error is raised, an unhandled error appears only as the one that ends the stream, and every end (an unmatched later utterance, an error of the live stream) raises one; `getVoices` always returns the cache and fetches exactly when it is empty |
| Game.Run | src/lib/game.ts:96-131 | the utterance count grows by the number of utterances in the trace; once ended, the merged stream stays ended |
| Game.Session | src/lib/game.ts:90-94 | the prompt is the first effect, written and not spoken, and the transcript is the prompt followed by what the trace writes |
| GameProperties.RunAppend | src/lib/game.ts:96-131 | running two traces one after the other equals running their concatenation, in state and effects |
| GameProperties.RunKeepsName | src/lib/game.ts:106-113 | from any state, the name after a trace is its first utterance if no utterance came before, and is otherwise unchanged |
| GameProperties.NameIsFirstUtterance | src/lib/game.ts:106-113 | after any session the stored name is the first utterance, or none if the user said nothing |
| GameProperties.RunOpening | src/lib/game.ts:106-113 | from a state with no utterance yet and an open output stream, a trace writes nothing until its first utterance, and the first string written is that utterance's greeting |
| GameProperties.TranscriptOpening | src/lib/game.ts:94-113 | the transcript starts with the prompt, then the greeting of the first utterance; with no utterance it is just the prompt |
| GameProperties.UserIsAlwaysHeard | src/lib/game.ts:96-104 | the user's speech equals the utterances, in order, muted or not and even after the output stream ends; there is one cancel per utterance |
| GameProperties.MatchedUtteranceIsRouted | src/lib/game.ts:114-122 | in any run, an utterance that arrives after the first, while the merged stream is open, and that some module accepts opens a stream for its first accepting module with its own position as generation, whatever follows |
| GameProperties.RoutesFollowPositions | src/lib/game.ts:114-122 | every stream opened in a trace belongs to the utterance at its generation, which is second or later, carries that utterance's text and goes to the first accepting module |
| GameProperties.FirstUtteranceIsNeverRouted | src/lib/game.ts:106-122 | in a session, every opened stream belongs to an utterance at position 2 or later, carries that utterance's text and goes to its first accepting module, so the first utterance never reaches the matcher |
| GameProperties.StaleStreamIsIgnored | src/lib/game.ts:114-122 | once a later utterance has arrived, removing every event of an earlier stream leaves the run unchanged |
| GameProperties.SupersededStreamIsSilenced | src/lib/game.ts:114-122 | after a prefix with more than k utterances, the session is the same with or without the events of stream k |
| GameProperties.RunNeverEmpty | src/lib/game.ts:125 | from any state, no trace writes or speaks an empty string as the computer |
| GameProperties.SessionNeverEmpty | src/lib/game.ts:124-131 | no empty string is ever written to the transcript or spoken as the computer |
| GameProperties.MutedRunIsSilent | src/lib/game.ts:126-129 | from a muted state, with no unmute in the trace, the computer never speaks |
| GameProperties.UnmutedRunSpeaks | src/lib/game.ts:126-130 | from an unmuted state, with no mute in the trace, the computer's speech equals the transcript, and every written string is spoken as the computer immediately before it is written |
| GameProperties.MuteNeverChangesTranscript | src/lib/game.ts:67-69 | from states that differ only in the mute flag, a trace and the same trace without mute calls write the same transcript |
| GameProperties.HaltedWritesNothing | src/lib/game.ts:114-131 | once the merged stream has ended, no trace writes anything more, makes the computer say anything, opens a response stream or raises an error |
| GameProperties.UnmatchedRunEndsOutput | src/lib/game.ts:118-119 | in any run, an utterance after the first that no module accepts leaves the transcript and the computer's speech at what they were before it, whatever follows |
| GameProperties.UnmatchedUtteranceEndsOutput | src/lib/game.ts:118-119 | in a session, after the name, an utterance no module accepts leaves the transcript and the computer's speech at what they were before that utterance, whatever follows |
| GameProperties.VoiceCacheIsStable | src/lib/game.ts:53-60 | once the cache holds voices, no trace changes it or asks the synthesizer again, every returned list is that list, and there is exactly one return of it per `getVoices` call |
| GameProperties.AnsweredConversation | src/lib/game.ts:94-131 | name, an accepted command and its module's non-empty answer give the transcript prompt, greeting, answer |
| GameProperties.UnansweredConversation | src/lib/game.ts:114-126 | name, then an utterance no module accepts, gives the transcript prompt, greeting, the unhandled error of generation 2 and an ended output stream |
| GameProperties.SessionEndsOnlyAfterRouting | src/lib/game.ts:106-126 | in every session, the merged stream can have ended only after at least two utterances, so the name-capture flow never meets an ended stream |
| GameProperties.LateAnswerIsDropped | src/lib/game.ts:116 | an answer to the second utterance that arrives after the third changes nothing in the transcript |
| LegacyGame.Step | src/js/lib/game.ts:45-69 | each input advances the count; only the first input sets the name |
| LegacyGame.Run | src/js/lib/game.ts:45-69 | exactly one output per input |
| LegacyGame.Session | src/js/lib/game.ts:43 | the prompt comes first, followed by one output per input |
| LegacyGame.LaterInputsAreEchoed | src/js/lib/game.ts:57-69 | after the name, every input is echoed in order and the name does not change |
| LegacyGame.SessionMatchesTranscript | src/js/lib/game.ts:43-69 | the engine's output equals the declarative transcript: the prompt, the greeting of the first input, then one echo per later input |
| LegacyGame.NameIsFirstInput | src/js/lib/game.ts:45-55 | the name is the first input, or the user's earlier name if there was no input |
| LegacyGame.Greet | src/js/lib/game.ts:74-76 | `greet()` answers "Hello " followed by exactly the stored name, which is never the first-input greeting |
| LegacyGame.GreetAfterSession | src/js/lib/game.ts:74-76 | `greet()` after a session answers "Hello " followed by the first input |
| LegacyGame.EveryLaterInputEchoedOnce | src/js/lib/game.ts:57-69 | output k+1 is the echo of input k for every k of 1 or more, including an empty input, which gives "You  wrote: "; output 1 is the greeting |
| LegacyGame.GreetingsDiffer | src/js/lib/game.ts:52 | the legacy greeting is the newer one without its trailing period |

## Left out

- `getCommands` (src/lib/game.ts:50-52) only forwards to the responder registry's command catalog. The registry's module metadata is not part of this model.
- `setup()`, the log function and the debug log lines do nothing observable.
- The `ReplaySubject` output channel and its subscriber are modelled as the `Write` effect. Replay to late subscribers is not modelled.
- What the response streams of responder modules contain and when they emit is not modelled. Their values and errors are events of the trace, tagged with the generation of the utterance that opened them.
- Speech synthesis, audio and the voices' properties are not modelled. A voice is an opaque identifier, and the synthesizer's voice report is the parameter of the `GetVoices` event.
- Completion of the input stream and of the response streams is not modelled. Completion produces no output in the source.
- The input observable is taken to be hot and shared: the tap's subscription sees each utterance before the name and chat flows do. Each utterance's effects therefore start with the cancel and the user's speech.
- An error on the input stream is not an event of the model. Neither `.subscribe()` call (src/lib/game.ts:104 and :126) has an error handler, so such an error would end both the tap and the merged stream, each reported as unhandled.
- A failure thrown by a speech call is not modelled. The source does not catch such failures.
- In the legacy engine, `Rx.of` emits synchronously, so the switch-to-latest operator never drops an echo. The `filter(() => true)` stage passes everything. Both are modelled by their effect.
- LegacyGame.Session: the user's name before the first input comes from the user object, which is not part of this model. It is a parameter.
- Game.Run: its own contract only states the utterance count and that an ended stream stays ended. The transcript, speech and routing behaviour of whole traces are stated by the `GameProperties` lemmas.

=== FILE: common.dfy ===
/** Definitions shared by both conversation engines. */
module Common {

  /** The conventional Some/None datatype. */
  datatype Option<+T> = None | Some(value: T)

  /** The fixed question both engines write before reading any input. */
  const Prompt: string := "Hello! What is your name?"

  // Small sequence facts. Dafny proves each of them on its own; the engines'
  // proofs call them so that the equality they need is handed over as a
  // fact, instead of being searched for among the many unfolded Run and
  // Step terms in scope, which keeps those proofs cheap and stable.

  lemma AppendNil<T>(a: seq<T>)
    ensures [] + a == a && a + [] == a
  {
  }

  lemma AppendAssoc<T>(a: seq<T>, b: seq<T>, c: seq<T>)
    ensures a + (b + c) == (a + b) + c
  {
  }

  lemma AppendTail<T>(a: seq<T>, b: seq<T>)
    requires |a| > 0
    ensures (a + b)[0] == a[0] && (a + b)[1..] == a[1..] + b
  {
  }

  lemma SplitFirst<T>(a: seq<T>)
    requires |a| > 0
    ensures a == [a[0]] + a[1..]
  {
  }

  lemma SplitTwo<T>(a: seq<T>)
    requires |a| >= 2
    ensures a == [a[0], a[1]] + a[2..]
  {
  }

  lemma ConsDisplay<T>(a: T, b: T, c: T)
    ensures [a] + [b] == [a, b] && [a] + [b, c] == [a, b, c]
  {
  }

  lemma IndexAppend<T>(a: seq<T>, b: seq<T>, i: int)
    requires 0 <= i < |a| + |b|
    ensures (a + b)[i] == if i < |a| then a[i] else b[i - |a|]
  {
  }
}

=== FILE: game.dfy ===
/** The conversation engine of `src/lib/game.ts` as a deterministic state
    machine. The reactive pipeline is flattened into a trace of events: user
    utterances, values and errors from responder streams, and calls on the
    services surface. Each event is handled by a pure `Step` that returns the
    new state and the effects it causes, in the order the pipeline causes them.

    A responder stream is identified by its generation: the 1-based position
    of the utterance that opened it. Switch-to-latest is the rule that only
    the stream of the latest utterance is still subscribed. */
module Game {
  import opened Common
  import opened Responders

  /** A synthesis voice, treated as an opaque token. */
  datatype Voice = Voice(id: nat)

  datatype GameState = GameState(
    inputs: nat,               // utterances received so far
    userName: Option<string>,  // the name the engine stored on the user (None: never stored)
    muted: bool,               // the services' mute flag
    halted: bool,              // the merged output stream has errored and is closed
    voices: seq<Voice>,        // the lazily filled voice cache
    userVoice: Option<Voice>,
    computerVoice: Option<Voice>)

  /** The state right after construction. */
  const Init: GameState := GameState(0, None, false, false, [], None, None)

  datatype Event =
    | Utterance(text: string)                 // a value on the input channel
    | ResponseValue(gen: nat, text: string)   // a value from the response stream of utterance `gen`
    | ResponseError(gen: nat)                 // an error from the response stream of utterance `gen`
    | SetMuted(value: bool)
    | SetUserVoice(voice: Voice)
    | SetComputerVoice(voice: Voice)
    | GetVoices(available: seq<Voice>)        // `available`: what the synthesizer would report now

  datatype Effect =
    | CancelSpeech                            // the synthesizer's `cancel`
    | SpeakUser(text: string)                 // the user participant speaks
    | SpeakComputer(text: string)             // the computer participant speaks
    | Write(text: string)                     // a string published on the output channel
    | Subscribe(gen: nat, responder: nat, text: string)  // a module's response stream is opened
    | UnhandledError(gen: nat)                // the merged stream ended with an error
    | FetchVoices                             // the synthesizer's `getVoices`
    | ReturnVoices(voices: seq<Voice>)        // what `getVoices` returns to its caller

  /** Where an effect's text goes. */
  datatype Channel = Transcript | UserSpeech | ComputerSpeech

  function TextOn(e: Effect, c: Channel): Option<string> {
    match (e, c)
    case (Write(t), Transcript) => Some(t)
    case (SpeakUser(t), UserSpeech) => Some(t)
    case (SpeakComputer(t), ComputerSpeech) => Some(t)
    case _ => None
  }

  /** The texts an effect list sends to one channel, in order. */
  function Project(fx: seq<Effect>, c: Channel): (r: seq<string>)
    ensures |r| <= |fx|
  {
    if |fx| == 0 then []
    else
      (match TextOn(fx[0], c) case Some(t) => [t] case None => []) + Project(fx[1..], c)
  }

  lemma {:induction false} ProjectConcat(a: seq<Effect>, b: seq<Effect>, c: Channel)
    ensures Project(a + b, c) == Project(a, c) + Project(b, c)
  {
    if |a| == 0 {
      assert a + b == b;
    } else {
      assert (a + b)[1..] == a[1..] + b;
      ProjectConcat(a[1..], b, c);
    }
  }

  lemma ProjectOne(e: Effect, c: Channel)
    ensures Project([e], c) == (match TextOn(e, c) case Some(t) => [t] case None => [])
  {
    assert [e][1..] == [];
  }

  lemma ProjectPair(e: Effect, f: Effect, c: Channel)
    ensures Project([e, f], c) == Project([e], c) + Project([f], c)
  {
    assert [e, f] == [e] + [f];
    ProjectConcat([e], [f], c);
  }

  /** The output transcript: every string written to the output channel. */
  function Written(fx: seq<Effect>): seq<string> {
    Project(fx, Transcript)
  }

  /** What the computer says, in order. */
  function Spoken(fx: seq<Effect>): seq<string> {
    Project(fx, ComputerSpeech)
  }

  /** No computer speech at all. */
  predicate Silent(fx: seq<Effect>) {
    forall i :: 0 <= i < |fx| ==> !fx[i].SpeakComputer?
  }

  /** Every write is immediately preceded by the computer speaking the same text. */
  ghost predicate SpokenBeforeWritten(fx: seq<Effect>) {
    && (|fx| > 0 ==> !fx[0].Write?)
    && forall j :: 1 <= j < |fx| && fx[j].Write? ==> fx[j - 1] == SpeakComputer(fx[j].text)
  }

  /** No empty string is written or spoken by the computer. */
  predicate NoEmptyOutput(fx: seq<Effect>) {
    forall i :: 0 <= i < |fx| && (fx[i].Write? || fx[i].SpeakComputer?) ==> fx[i].text != ""
  }

  /** No effect of the user's own turn (cancel or user speech). */
  predicate NoUserTurn(fx: seq<Effect>) {
    forall i :: 0 <= i < |fx| ==> fx[i] != CancelSpeech && !fx[i].SpeakUser?
  }

  /** No call of the voice services. */
  predicate NoVoiceQuery(fx: seq<Effect>) {
    forall i :: 0 <= i < |fx| ==> fx[i] != FetchVoices && !fx[i].ReturnVoices?
  }

  /** No response stream is opened and no error is raised. */
  predicate NoRouting(fx: seq<Effect>) {
    forall i :: 0 <= i < |fx| ==> !fx[i].Subscribe? && !fx[i].UnhandledError?
  }

  /** Every unhandled error in `fx` is the one that ends the merged stream:
      the stream was open before (`wasOpen`) and is ended after (`ended`). */
  predicate ErrorsEnd(wasOpen: bool, ended: bool, fx: seq<Effect>) {
    forall i :: 0 <= i < |fx| && fx[i].UnhandledError? ==> wasOpen && ended
  }

  /** The greeting sent back for the captured name (note the trailing period). */
  function Greeting(name: string): string {
    "Hello, " + name + "!."
  }

  /** Values from the stream of utterance `gen` still reach the output: the
      merged stream is open and `gen` is the latest utterance, which is routed
      (so at least the second). */
  predicate Live(s: GameState, gen: nat) {
    !s.halted && 2 <= gen && gen == s.inputs
  }

  /** What a step publishes, stated without the mute flag or the effect list:
      the greeting for the first utterance, a non-empty value from the live
      stream, and nothing else. */
  function Published(s: GameState, e: Event): seq<string> {
    match e
    case Utterance(t) => if s.inputs == 0 && !s.halted then [Greeting(t)] else []
    case ResponseValue(g, t) => if Live(s, g) && t != "" then [t] else []
    case _ => []
  }

  /** The subscriber of the merged stream: falsy values are filtered; a value
      that passes is spoken by the computer unless muted, then written. */
  function Publish(s: GameState, t: string): (fx: seq<Effect>)
    ensures Written(fx) == (if t != "" && !s.halted then [t] else [])
    ensures t == "" || s.halted ==> fx == []
    ensures Spoken(fx) == (if s.muted then [] else Written(fx))
    ensures s.muted ==> Silent(fx)
    ensures !s.muted ==> SpokenBeforeWritten(fx)
    ensures NoEmptyOutput(fx)
    ensures NoUserTurn(fx)
    ensures forall i :: 0 <= i < |fx| ==> fx[i].Write? || fx[i].SpeakComputer?
  {
    PublishChannels(t);
    if t == "" || s.halted then []
    else if s.muted then [Write(t)]
    else [SpeakComputer(t), Write(t)]
  }

  /** What the two possible outputs of `Publish` send to each channel. */
  lemma PublishChannels(t: string)
    ensures Written([Write(t)]) == [t] && Spoken([Write(t)]) == []
    ensures Written([SpeakComputer(t), Write(t)]) == [t] && Spoken([SpeakComputer(t), Write(t)]) == [t]
  {
    ProjectOne(Write(t), Transcript);
    ProjectOne(Write(t), ComputerSpeech);
    ProjectPair(SpeakComputer(t), Write(t), Transcript);
    ProjectOne(SpeakComputer(t), Transcript);
    ProjectPair(SpeakComputer(t), Write(t), ComputerSpeech);
    ProjectOne(SpeakComputer(t), ComputerSpeech);
  }

  /** An effect with no text on the transcript or the computer's voice. */
  lemma Textless(x: Effect)
    requires !x.Write? && !x.SpeakComputer?
    ensures Written([x]) == [] && Spoken([x]) == []
  {
    ProjectOne(x, Transcript);
    ProjectOne(x, ComputerSpeech);
  }

  /** The name-capture flow (`take(1)`): the first utterance is stored as
      the user's name and answered with a greeting, which goes through the
      merged stream's subscriber like any other output. A state with no
      utterance yet and an ended merged stream cannot arise from `Init`
      (`GameProperties.EndsOnlyAfterRouting`), so storing the name there
      too does not matter; the source would not run the flow in it. */
  function TakeName(s: GameState, t: string): (r: (GameState, seq<Effect>))
    ensures r.0.userName == Some(t)
    ensures r.0.(userName := s.userName) == s
    ensures Written(r.1) == (if s.halted then [] else [Greeting(t)])
    ensures Spoken(r.1) == (if s.muted then [] else Written(r.1))
    ensures s.muted ==> Silent(r.1)
    ensures !s.muted ==> SpokenBeforeWritten(r.1)
    ensures NoEmptyOutput(r.1) && NoUserTurn(r.1)
    ensures forall i :: 0 <= i < |r.1| ==> r.1[i].Write? || r.1[i].SpeakComputer?
  {
    var s' := s.(userName := Some(t));
    (s', Publish(s', Greeting(t)))
  }

  /** The chat-routing flow (`skip(1)` then `switchMap`) for utterance number
      `k`: the first module that accepts `t` gets its response stream opened,
      which supersedes the previous one. With an empty match list the source
      dereferences an undefined module; the resulting error ends the merged
      stream. Once the merged stream has ended, nothing is routed. */
  function Route(reg: Registry, s: GameState, k: nat, t: string): (r: (GameState, seq<Effect>))
    ensures r.0.halted <==> s.halted || NoMatch(reg, t)
    ensures r.0.(halted := s.halted) == s
    ensures Written(r.1) == [] && Spoken(r.1) == [] && Silent(r.1) && NoUserTurn(r.1) && NoEmptyOutput(r.1)
    ensures NoVoiceQuery(r.1)
    ensures forall i :: 0 <= i < |r.1| && r.1[i].Subscribe? ==>
              r.1[i].gen == k && r.1[i].text == t && IsFirstMatch(reg, t, r.1[i].responder)
    ensures !s.halted ==> forall m :: IsFirstMatch(reg, t, m) ==> Subscribe(k, m, t) in r.1
    ensures !s.halted && NoMatch(reg, t) <==> UnhandledError(k) in r.1
    ensures ErrorsEnd(!s.halted, r.0.halted, r.1)
    ensures s.halted ==> r == (s, [])
    ensures |r.1| == (if s.halted then 0 else 1)
  {
    if s.halted then (s, [])
    else
      match FirstResponder(reg, t)
      case Some(m) =>
        FirstMatchUnique(reg, t, m);
        Textless(Subscribe(k, m, t));
        (s, [Subscribe(k, m, t)])
      case None =>
        Textless(UnhandledError(k));
        (s.(halted := true), [UnhandledError(k)])
  }

  /** What the input tap does for every utterance, muted or not: cancel any
      computer speech, then speak the text as the user. */
  function Hear(t: string): (fx: seq<Effect>)
    ensures Project(fx, UserSpeech) == [t]
    ensures Written(fx) == [] && Spoken(fx) == []
    ensures |fx| == 2 && fx[0] == CancelSpeech
  {
    HearChannels(t);
    [CancelSpeech, SpeakUser(t)]
  }

  /** What the tap's two effects send to each channel. */
  lemma HearChannels(t: string)
    ensures Project([CancelSpeech, SpeakUser(t)], UserSpeech) == [t]
    ensures Written([CancelSpeech, SpeakUser(t)]) == [] && Spoken([CancelSpeech, SpeakUser(t)]) == []
  {
    ProjectPair(CancelSpeech, SpeakUser(t), UserSpeech);
    ProjectOne(CancelSpeech, UserSpeech);
    ProjectOne(SpeakUser(t), UserSpeech);
    ProjectPair(CancelSpeech, SpeakUser(t), Transcript);
    Textless(CancelSpeech);
    Textless(SpeakUser(t));
    ProjectPair(CancelSpeech, SpeakUser(t), ComputerSpeech);
  }

  /** Putting the tap's effects first writes and says nothing more. */
  lemma HearFirst(t: string, fx: seq<Effect>)
    ensures Written(Hear(t) + fx) == Written(fx)
    ensures Spoken(Hear(t) + fx) == Spoken(fx)
    ensures (Hear(t) + fx)[2..] == fx
  {
    ProjectConcat(Hear(t), fx, Transcript);
    ProjectConcat(Hear(t), fx, ComputerSpeech);
  }

  /** Putting the tap's effects first keeps the output properties of the rest. */
  lemma HearKeeps(t: string, fx: seq<Effect>)
    ensures Silent(fx) ==> Silent(Hear(t) + fx)
    ensures NoEmptyOutput(fx) ==> NoEmptyOutput(Hear(t) + fx)
    ensures NoVoiceQuery(fx) ==> NoVoiceQuery(Hear(t) + fx)
    ensures SpokenBeforeWritten(fx) ==> SpokenBeforeWritten(Hear(t) + fx)
  {
    if SpokenBeforeWritten(fx) {
      SpokenConcat(Hear(t), fx);
    }
    forall i | 2 <= i < |Hear(t) + fx|
      ensures (Hear(t) + fx)[i] == fx[i - 2]
    {
      IndexAppend(Hear(t), fx, i);
    }
  }

  /** Two effect lists in which every write follows the computer speaking
      it keep that order when put one after the other. */
  lemma SpokenConcat(a: seq<Effect>, b: seq<Effect>)
    requires SpokenBeforeWritten(a) && SpokenBeforeWritten(b)
    ensures SpokenBeforeWritten(a + b)
  {
    var fx := a + b;
    forall j | 1 <= j < |fx| && fx[j].Write?
      ensures fx[j - 1] == SpeakComputer(fx[j].text)
    {
      IndexAppend(a, b, j - 1);
      IndexAppend(a, b, j);
    }
    if |fx| > 0 {
      IndexAppend(a, b, 0);
    }
  }

  /** Every stream `fx` opens is opened for generation `g`, which is the
      second utterance or later, carries the text `t` and goes to the first
      module that accepts `t`. */
  predicate OpensOnlyFor(reg: Registry, g: nat, t: string, fx: seq<Effect>) {
    forall i :: 0 <= i < |fx| && fx[i].Subscribe? ==>
      fx[i].gen == g >= 2 && fx[i].text == t && IsFirstMatch(reg, t, fx[i].responder)
  }

  /** The two flows that share the input after the tap: the first
      utterance goes to the name-capture flow and every later one to the
      chat-routing flow. The split is by position only. */
  function Flows(reg: Registry, s: GameState, t: string): (r: (GameState, seq<Effect>))
    ensures r.0.userName == (if s.inputs == 0 then Some(t) else s.userName)
    ensures r.0.halted <==> s.halted || (s.inputs > 0 && NoMatch(reg, t))
    ensures r.0.(userName := s.userName, halted := s.halted) == s
    ensures NoUserTurn(r.1)
    ensures Written(r.1) == Published(s, Utterance(t))
    ensures Spoken(r.1) == (if s.muted then [] else Published(s, Utterance(t)))
    ensures s.muted ==> Silent(r.1)
    ensures !s.muted ==> SpokenBeforeWritten(r.1)
    ensures NoEmptyOutput(r.1) && NoVoiceQuery(r.1)
    ensures OpensOnlyFor(reg, s.inputs + 1, t, r.1)
    ensures s.inputs > 0 && !s.halted ==>
              forall m :: IsFirstMatch(reg, t, m) ==> Subscribe(s.inputs + 1, m, t) in r.1
    ensures s.halted ==> NoRouting(r.1)
    ensures ErrorsEnd(!s.halted, r.0.halted, r.1)
    ensures s.inputs > 0 && !s.halted && NoMatch(reg, t) ==> UnhandledError(s.inputs + 1) in r.1
  {
    if s.inputs == 0 then TakeName(s, t) else Route(reg, s, s.inputs + 1, t)
  }

  /** The tap's effects in front of `fx` hide none of its streams. */
  lemma HearStreams(t: string, fx: seq<Effect>)
    ensures forall x :: x in fx ==> x in Hear(t) + fx
    ensures forall i :: 2 <= i < |Hear(t) + fx| ==> (Hear(t) + fx)[i] == fx[i - 2]
    ensures !(Hear(t) + fx)[0].Subscribe? && !(Hear(t) + fx)[1].Subscribe?
  {
  }

  /** An utterance: the tap's effects, then those of the flows. */
  function OnUtterance(reg: Registry, s: GameState, t: string): (r: (GameState, seq<Effect>))
    ensures r.0.inputs == s.inputs + 1
    ensures r.0.userName == (if s.inputs == 0 then Some(t) else s.userName)
    ensures r.0.halted <==> s.halted || (s.inputs > 0 && NoMatch(reg, t))
    ensures r.0.(inputs := s.inputs, userName := s.userName, halted := s.halted) == s
    ensures |r.1| >= 2 && r.1[0] == CancelSpeech && r.1[1] == SpeakUser(t) && NoUserTurn(r.1[2..])
    ensures Written(r.1) == Published(s, Utterance(t))
    ensures Spoken(r.1) == (if s.muted then [] else Published(s, Utterance(t)))
    ensures s.muted ==> Silent(r.1)
    ensures !s.muted ==> SpokenBeforeWritten(r.1)
    ensures NoEmptyOutput(r.1) && NoVoiceQuery(r.1)
    ensures OpensOnlyFor(reg, s.inputs + 1, t, r.1)
    ensures s.inputs > 0 && !s.halted ==>
              forall m :: IsFirstMatch(reg, t, m) ==> Subscribe(s.inputs + 1, m, t) in r.1
    ensures s.halted ==> NoRouting(r.1)
    ensures ErrorsEnd(!s.halted, r.0.halted, r.1)
    ensures s.inputs > 0 && !s.halted && NoMatch(reg, t) ==> UnhandledError(s.inputs + 1) in r.1
  {
    var flow := Flows(reg, s, t);
    HeardFirst(reg, s, t, Published(s, Utterance(t)), flow.0.halted, flow.1);
    (flow.0.(inputs := s.inputs + 1), Hear(t) + flow.1)
  }

  /** The tap's effects in front of what the two flows produce change none
      of the flows' output promises and open no stream of their own. */
  lemma HeardFirst(reg: Registry, s: GameState, t: string, w: seq<string>, ended: bool, fx: seq<Effect>)
    requires NoUserTurn(fx)
    requires Written(fx) == w && Spoken(fx) == (if s.muted then [] else w)
    requires s.muted ==> Silent(fx)
    requires !s.muted ==> SpokenBeforeWritten(fx)
    requires NoEmptyOutput(fx) && NoVoiceQuery(fx)
    requires OpensOnlyFor(reg, s.inputs + 1, t, fx)
    requires s.inputs > 0 && !s.halted ==>
               forall m :: IsFirstMatch(reg, t, m) ==> Subscribe(s.inputs + 1, m, t) in fx
    requires s.halted ==> NoRouting(fx)
    requires ErrorsEnd(!s.halted, ended, fx)
    requires s.inputs > 0 && !s.halted && NoMatch(reg, t) ==> UnhandledError(s.inputs + 1) in fx
    ensures |Hear(t) + fx| >= 2 && (Hear(t) + fx)[0] == CancelSpeech && (Hear(t) + fx)[1] == SpeakUser(t)
    ensures NoUserTurn((Hear(t) + fx)[2..])
    ensures Written(Hear(t) + fx) == w && Spoken(Hear(t) + fx) == (if s.muted then [] else w)
    ensures s.muted ==> Silent(Hear(t) + fx)
    ensures !s.muted ==> SpokenBeforeWritten(Hear(t) + fx)
    ensures NoEmptyOutput(Hear(t) + fx) && NoVoiceQuery(Hear(t) + fx)
    ensures OpensOnlyFor(reg, s.inputs + 1, t, Hear(t) + fx)
    ensures s.inputs > 0 && !s.halted ==>
              forall m :: IsFirstMatch(reg, t, m) ==> Subscribe(s.inputs + 1, m, t) in Hear(t) + fx
    ensures s.halted ==> NoRouting(Hear(t) + fx)
    ensures ErrorsEnd(!s.halted, ended, Hear(t) + fx)
    ensures s.inputs > 0 && !s.halted && NoMatch(reg, t) ==> UnhandledError(s.inputs + 1) in Hear(t) + fx
  {
    HearFirst(t, fx);
    HearKeeps(t, fx);
    HearStreams(t, fx);
  }

  /** A value from a response stream: published only when it comes from the
      live stream; values from superseded streams are dropped. */
  function OnResponseValue(s: GameState, g: nat, t: string): (fx: seq<Effect>)
    ensures Written(fx) == Published(s, ResponseValue(g, t))
    ensures Spoken(fx) == (if s.muted then [] else Published(s, ResponseValue(g, t)))
    ensures !Live(s, g) ==> fx == []
    ensures s.muted ==> Silent(fx)
    ensures !s.muted ==> SpokenBeforeWritten(fx)
    ensures NoEmptyOutput(fx)
    ensures NoUserTurn(fx)
    ensures NoVoiceQuery(fx)
    ensures forall i :: 0 <= i < |fx| ==> fx[i].Write? || fx[i].SpeakComputer?
  {
    if Live(s, g) then Publish(s, t) else []
  }

  /** An error from a response stream: an error of the live stream ends the
      merged stream; a superseded stream is no longer subscribed. */
  function OnResponseError(s: GameState, g: nat): (r: (GameState, seq<Effect>))
    ensures r.0.halted <==> s.halted || Live(s, g)
    ensures r.0.(halted := s.halted) == s
    ensures Written(r.1) == [] && Spoken(r.1) == [] && Silent(r.1) && NoUserTurn(r.1) && NoVoiceQuery(r.1)
    ensures forall i :: 0 <= i < |r.1| ==> r.1[i] == UnhandledError(g)
    ensures r.1 != [] <==> Live(s, g)
  {
    if Live(s, g) then
      Textless(UnhandledError(g));
      (s.(halted := true), [UnhandledError(g)])
    else (s, [])
  }

  /** `setIsMuted`: changes the mute flag and nothing else. */
  function SetIsMuted(s: GameState, value: bool): (r: GameState)
    ensures r.muted == value
    ensures r.(muted := s.muted) == s
  {
    s.(muted := value)
  }

  /** `setUserVoice`: changes the user's voice and nothing else; the voice
      is not checked against the cache. */
  function SetUserVoiceService(s: GameState, v: Voice): (r: GameState)
    ensures r.userVoice == Some(v)
    ensures r.(userVoice := s.userVoice) == s
  {
    s.(userVoice := Some(v))
  }

  /** `setComputerVoice`: changes the computer's voice and nothing else. */
  function SetComputerVoiceService(s: GameState, v: Voice): (r: GameState)
    ensures r.computerVoice == Some(v)
    ensures r.(computerVoice := s.computerVoice) == s
  {
    s.(computerVoice := Some(v))
  }

  /** `getVoices`: asks the synthesizer only while the cache is empty, stores
      what it reports, and returns the cache. The answer is the first
      non-empty report; an empty report leaves the cache empty. */
  function GetVoicesService(s: GameState, available: seq<Voice>): (r: (GameState, seq<Voice>, bool))
    ensures r.2 <==> |s.voices| == 0
    ensures r.1 == r.0.voices
    ensures |s.voices| > 0 ==> r.0 == s && r.1 == s.voices
    ensures |s.voices| == 0 ==> r.1 == available
    ensures r.0.(voices := s.voices) == s
  {
    if |s.voices| == 0 then (s.(voices := available), available, true)
    else (s, s.voices, false)
  }

  /** A call of `getVoices`: the synthesizer is asked only while the cache
      is empty; the caller gets the cache. */
  function OnGetVoices(s: GameState, available: seq<Voice>): (r: (GameState, seq<Effect>))
    ensures r.0.voices == (if |s.voices| == 0 then available else s.voices)
    ensures r.0.(voices := s.voices) == s
    ensures FetchVoices in r.1 <==> |s.voices| == 0
    ensures r.1 == (if |s.voices| == 0 then [FetchVoices] else []) + [ReturnVoices(r.0.voices)]
    ensures forall i :: 0 <= i < |r.1| && r.1[i].ReturnVoices? ==> r.1[i].voices == r.0.voices
    ensures Written(r.1) == [] && Spoken(r.1) == [] && Silent(r.1) && NoUserTurn(r.1) && NoEmptyOutput(r.1)
    ensures forall i :: 0 <= i < |r.1| ==> !r.1[i].Subscribe?
  {
    var (s', vs, fetched) := GetVoicesService(s, available);
    VoiceChannels(fetched, vs);
    (s', (if fetched then [FetchVoices] else []) + [ReturnVoices(vs)])
  }

  /** The voice effects send nothing to the transcript or the computer's voice. */
  lemma VoiceChannels(fetched: bool, vs: seq<Voice>)
    ensures Written((if fetched then [FetchVoices] else []) + [ReturnVoices(vs)]) == []
    ensures Spoken((if fetched then [FetchVoices] else []) + [ReturnVoices(vs)]) == []
  {
    Textless(FetchVoices);
    Textless(ReturnVoices(vs));
    ProjectConcat(if fetched then [FetchVoices] else [], [ReturnVoices(vs)], Transcript);
    ProjectConcat(if fetched then [FetchVoices] else [], [ReturnVoices(vs)], ComputerSpeech);
  }

  /** What the engine promises about its reaction `r` to event `e` in state
      `s`: only utterances are counted, and only the first sets the name;
      the merged stream ends only on a later utterance no module accepts or
      an error of the live stream; the transcript gets exactly what
      `Published` prescribes; mute gates computer speech and nothing else;
      the computer says exactly what is written unless muted, and then
      nothing; every utterance is first cancelled-and-spoken as the user;
      every opened stream belongs to a second-or-later utterance and its
      first accepting module, and such an utterance arriving while the
      merged stream is open does open one; once the merged stream has
      ended nothing is routed and no error is raised; an unhandled error
      appears only as the one that ends the stream, and every end raises
      one; the two voices change only through their own setters; only `getVoices` touches the voice
      services, and it always returns the cached list, fetching it first
      exactly when the cache is empty. */
  ghost predicate Reacts(reg: Registry, s: GameState, e: Event, r: (GameState, seq<Effect>)) {
    && r.0.inputs == s.inputs + (if e.Utterance? then 1 else 0)
    && r.0.userName == (if e.Utterance? && s.inputs == 0 then Some(e.text) else s.userName)
    && (r.0.halted <==> || s.halted
                        || (e.Utterance? && s.inputs > 0 && NoMatch(reg, e.text))
                        || (e.ResponseError? && Live(s, e.gen)))
    && r.0.muted == (if e.SetMuted? then e.value else s.muted)
    && r.0.voices == (if e.GetVoices? && |s.voices| == 0 then e.available else s.voices)
    && r.0.userVoice == (if e.SetUserVoice? then Some(e.voice) else s.userVoice)
    && r.0.computerVoice == (if e.SetComputerVoice? then Some(e.voice) else s.computerVoice)
    && Written(r.1) == Published(s, e)
    && Spoken(r.1) == (if s.muted then [] else Published(s, e))
    && (s.muted ==> Silent(r.1))
    && (!s.muted ==> SpokenBeforeWritten(r.1))
    && NoEmptyOutput(r.1)
    && (e.Utterance? ==> |r.1| >= 2 && r.1[0] == CancelSpeech && r.1[1] == SpeakUser(e.text) && NoUserTurn(r.1[2..]))
    && (!e.Utterance? ==> NoUserTurn(r.1))
    && (forall i :: 0 <= i < |r.1| && r.1[i].Subscribe? ==>
          e.Utterance? && r.1[i].gen == s.inputs + 1 >= 2 && r.1[i].text == e.text
          && IsFirstMatch(reg, e.text, r.1[i].responder))
    && (e.Utterance? && s.inputs > 0 && !s.halted ==>
          forall m :: IsFirstMatch(reg, e.text, m) ==> Subscribe(s.inputs + 1, m, e.text) in r.1)
    && (s.halted ==> NoRouting(r.1))
    && ErrorsEnd(!s.halted, r.0.halted, r.1)
    && (e.Utterance? && s.inputs > 0 && !s.halted && NoMatch(reg, e.text) ==> UnhandledError(s.inputs + 1) in r.1)
    && (e.ResponseError? && Live(s, e.gen) ==> UnhandledError(e.gen) in r.1)
    && (e.GetVoices? ==> r.1 == (if |s.voices| == 0 then [FetchVoices] else []) + [ReturnVoices(r.0.voices)])
    && (!e.GetVoices? ==> NoVoiceQuery(r.1))
  }

  /** Whether `e` arrives on the input channel or a response stream, rather
      than as a call on the services surface. */
  predicate OnPipeline(e: Event) {
    e.Utterance? || e.ResponseValue? || e.ResponseError?
  }

  /** An event of the reactive pipeline. */
  function OnPipelineEvent(reg: Registry, s: GameState, e: Event): (r: (GameState, seq<Effect>))
    requires OnPipeline(e)
    ensures Reacts(reg, s, e, r)
  {
    match e
    case Utterance(t) => OnUtterance(reg, s, t)
    case ResponseValue(g, t) => (s, OnResponseValue(s, g, t))
    case ResponseError(g) => OnResponseError(s, g)
  }

  /** A call on the services surface; `reg` only names the registry the
      promise is stated against. */
  function OnServiceCall(reg: Registry, s: GameState, e: Event): (r: (GameState, seq<Effect>))
    requires !OnPipeline(e)
    ensures Reacts(reg, s, e, r)
  {
    assert Written([]) == [] && Spoken([]) == [];
    match e
    case SetMuted(b) => (SetIsMuted(s, b), [])
    case SetUserVoice(v) => (SetUserVoiceService(s, v), [])
    case SetComputerVoice(v) => (SetComputerVoiceService(s, v), [])
    case GetVoices(available) => OnGetVoices(s, available)
  }

  /** One event. */
  function Step(reg: Registry, s: GameState, e: Event): (r: (GameState, seq<Effect>))
    ensures Reacts(reg, s, e, r)
  {
    if OnPipeline(e) then OnPipelineEvent(reg, s, e) else OnServiceCall(reg, s, e)
  }

  /** A trace of events, from a given state. */
  function Run(reg: Registry, s: GameState, evs: seq<Event>): (r: (GameState, seq<Effect>))
    ensures r.0.inputs == s.inputs + |Utterances(evs)|
    ensures s.halted ==> r.0.halted
    decreases |evs|
  {
    if |evs| == 0 then (s, [])
    else
      var first := Step(reg, s, evs[0]);
      var rest := Run(reg, first.0, evs[1..]);
      (rest.0, first.1 + rest.1)
  }

  /** `start()` followed by a trace of events: the prompt is written first,
      directly to the output, and is never spoken. */
  function Session(reg: Registry, evs: seq<Event>): (r: (GameState, seq<Effect>))
    ensures |r.1| > 0 && r.1[0] == Write(Prompt)
    ensures Written(r.1) == [Prompt] + Written(Run(reg, Init, evs).1)
    ensures Spoken(r.1) == Spoken(Run(reg, Init, evs).1)
  {
    var run := Run(reg, Init, evs);
    ProjectConcat([Write(Prompt)], run.1, Transcript);
    ProjectConcat([Write(Prompt)], run.1, ComputerSpeech);
    ProjectOne(Write(Prompt), ComputerSpeech);
    (run.0, [Write(Prompt)] + run.1)
  }

  /** The texts of the utterances of a trace, in order. */
  function Utterances(evs: seq<Event>): (r: seq<string>)
    ensures |r| <= |evs|
  {
    if |evs| == 0 then []
    else (if evs[0].Utterance? then [evs[0].text] else []) + Utterances(evs[1..])
  }
}

=== FILE: game_properties.dfy ===
/** Properties of whole event traces of the conversation engine in
    `src/lib/game.ts`, proved from the per-event contracts of `Game`. */
module GameProperties {
  import opened Common
  import opened Responders
  import opened Game

  /** A trace that starts with `e`: the effects of `e`, then the rest. */
  lemma RunCons(reg: Registry, s: GameState, e: Event, rest: seq<Event>)
    ensures Run(reg, s, [e] + rest).0 == Run(reg, Step(reg, s, e).0, rest).0
    ensures Run(reg, s, [e] + rest).1 == Step(reg, s, e).1 + Run(reg, Step(reg, s, e).0, rest).1
  {
    AppendTail([e], rest);
  }

  /** Running two traces one after the other is running their concatenation. */
  lemma {:induction false} RunAppend(reg: Registry, s: GameState, a: seq<Event>, b: seq<Event>)
    ensures Run(reg, s, a + b)
            == (Run(reg, Run(reg, s, a).0, b).0, Run(reg, s, a).1 + Run(reg, Run(reg, s, a).0, b).1)
    decreases |a|
  {
    if |a| == 0 {
      assert a + b == b;
      AppendNil(Run(reg, s, b).1);
    } else {
      var first := Step(reg, s, a[0]);
      AppendTail(a, b);
      RunAppend(reg, first.0, a[1..], b);
      var mid := Run(reg, first.0, a[1..]);
      var last := Run(reg, mid.0, b);
      AppendAssoc(first.1, mid.1, last.1);
    }
  }

  // ---------------------------------------------------------------------------
  // Name capture

  /** Only the first utterance of a trace can set the name, and only when no
      utterance came before it. */
  lemma {:induction false} RunKeepsName(reg: Registry, s: GameState, evs: seq<Event>)
    ensures Run(reg, s, evs).0.userName
            == if s.inputs == 0 && |Utterances(evs)| > 0 then Some(Utterances(evs)[0]) else s.userName
    decreases |evs|
  {
    if |evs| > 0 {
      RunKeepsName(reg, Step(reg, s, evs[0]).0, evs[1..]);
      SplitFirst(evs);
      NameStep(reg, s, evs[0], evs[1..]);
    }
  }

  /** The inductive step of `RunKeepsName`. */
  lemma NameStep(reg: Registry, s: GameState, e: Event, rest: seq<Event>)
    requires var s1 := Step(reg, s, e).0;
             Run(reg, s1, rest).0.userName
             == if s1.inputs == 0 && |Utterances(rest)| > 0 then Some(Utterances(rest)[0]) else s1.userName
    ensures Run(reg, s, [e] + rest).0.userName
            == if s.inputs == 0 && |Utterances([e] + rest)| > 0 then Some(Utterances([e] + rest)[0]) else s.userName
  {
    RunCons(reg, s, e, rest);
    UtterancesCons(e, rest);
    StepCounts(reg, s, e);
    AppendNil(Utterances(rest));
  }

  /** After any trace, the stored name is the first utterance, whatever came
      later; before the first utterance no name is stored. */
  lemma NameIsFirstUtterance(reg: Registry, evs: seq<Event>)
    ensures Session(reg, evs).0.userName
            == if |Utterances(evs)| > 0 then Some(Utterances(evs)[0]) else None
  {
    RunKeepsName(reg, Init, evs);
  }

  // ---------------------------------------------------------------------------
  // The output transcript opens with the prompt and the greeting

  /** From a state that has seen no utterance, nothing is written before the
      first utterance, and the first thing written is the greeting for it. */
  lemma {:induction false} RunOpening(reg: Registry, s: GameState, evs: seq<Event>)
    requires s.inputs == 0 && !s.halted
    ensures |Utterances(evs)| == 0 ==> Written(Run(reg, s, evs).1) == []
    ensures |Utterances(evs)| > 0 ==>
              |Written(Run(reg, s, evs).1)| > 0 && Written(Run(reg, s, evs).1)[0] == Greeting(Utterances(evs)[0])
    decreases |evs|
  {
    if |evs| > 0 {
      var first := Step(reg, s, evs[0]);
      var rest := Run(reg, first.0, evs[1..]);
      ProjectConcat(first.1, rest.1, Transcript);
      if !evs[0].Utterance? {
        RunOpening(reg, first.0, evs[1..]);
      }
    }
  }

  /** The transcript starts with the prompt; if the user said anything, the
      greeting for the first utterance comes next, before any chat output. */
  lemma TranscriptOpening(reg: Registry, evs: seq<Event>)
    ensures |Written(Session(reg, evs).1)| > 0 && Written(Session(reg, evs).1)[0] == Prompt
    ensures |Utterances(evs)| == 0 ==> Written(Session(reg, evs).1) == [Prompt]
    ensures |Utterances(evs)| > 0 ==>
              |Written(Session(reg, evs).1)| > 1 && Written(Session(reg, evs).1)[1] == Greeting(Utterances(evs)[0])
  {
    RunOpening(reg, Init, evs);
  }

  // ---------------------------------------------------------------------------
  // The user's turn

  lemma {:induction false} NoUserTurnProjects(fx: seq<Effect>)
    requires NoUserTurn(fx)
    ensures Project(fx, UserSpeech) == []
    ensures multiset(fx)[CancelSpeech] == 0
    decreases |fx|
  {
    if |fx| > 0 {
      SplitFirst(fx);
      assert NoUserTurn(fx[1..]) by {
        forall i | 0 <= i < |fx[1..]| ensures fx[1..][i] != CancelSpeech && !fx[1..][i].SpeakUser? {
          assert fx[1..][i] == fx[i + 1];
        }
      }
      NoUserTurnProjects(fx[1..]);
    }
  }

  /** One event: an utterance is spoken as the user once, after one cancel;
      nothing else speaks for the user or cancels. */
  lemma StepUserSpeech(reg: Registry, s: GameState, e: Event)
    ensures Project(Step(reg, s, e).1, UserSpeech) == (if e.Utterance? then [e.text] else [])
    ensures multiset(Step(reg, s, e).1)[CancelSpeech] == (if e.Utterance? then 1 else 0)
  {
    var fx := Step(reg, s, e).1;
    if e.Utterance? {
      HeardOnce(e.text, fx);
    } else {
      NoUserTurnProjects(fx);
    }
  }

  /** Effects that open with the input tap's cancel and user speech, and
      speak for the user nowhere else, hear the user exactly once. */
  lemma HeardOnce(t: string, fx: seq<Effect>)
    requires |fx| >= 2 && fx[0] == CancelSpeech && fx[1] == SpeakUser(t) && NoUserTurn(fx[2..])
    ensures Project(fx, UserSpeech) == [t]
    ensures multiset(fx)[CancelSpeech] == 1
  {
    SplitTwo(fx);
    NoUserTurnProjects(fx[2..]);
    ProjectConcat([fx[0], fx[1]], fx[2..], UserSpeech);
    ProjectPair(fx[0], fx[1], UserSpeech);
    ProjectOne(fx[0], UserSpeech);
    ProjectOne(fx[1], UserSpeech);
    AppendNil([t]);
  }

  /** The user's speech mirrors the input exactly: each utterance is spoken as
      the user once, in order, with one cancel of computer speech per
      utterance. This holds muted or not, and even after the output stream
      has ended. */
  lemma {:induction false} UserIsAlwaysHeard(reg: Registry, s: GameState, evs: seq<Event>)
    ensures Project(Run(reg, s, evs).1, UserSpeech) == Utterances(evs)
    ensures multiset(Run(reg, s, evs).1)[CancelSpeech] == |Utterances(evs)|
    decreases |evs|
  {
    if |evs| > 0 {
      var first := Step(reg, s, evs[0]);
      var rest := Run(reg, first.0, evs[1..]);
      StepUserSpeech(reg, s, evs[0]);
      UserIsAlwaysHeard(reg, first.0, evs[1..]);
      assert Run(reg, s, evs).1 == first.1 + rest.1;
      ProjectConcat(first.1, rest.1, UserSpeech);
    }
  }

  // ---------------------------------------------------------------------------
  // Routing

  /** `e`, if it opens a response stream, is well placed in a trace that
      starts after `n` utterances and then brings the utterances `us`: its
      generation is the position of one of them, at least the second overall,
      its text is that utterance, and its module is the first that accepts it. */
  predicate RoutedAt(reg: Registry, n: nat, us: seq<string>, e: Effect) {
    e.Subscribe? ==>
      && 2 <= e.gen
      && n < e.gen <= n + |us|
      && e.text == us[e.gen - n - 1]
      && IsFirstMatch(reg, e.text, e.responder)
  }

  lemma RoutedShift(reg: Registry, n: nat, u: string, us: seq<string>, e: Effect)
    requires RoutedAt(reg, n + 1, us, e)
    ensures RoutedAt(reg, n, [u] + us, e)
  {
  }

  /** The utterances an event contributes to a trace. */
  function Said(e: Event): seq<string> {
    if e.Utterance? then [e.text] else []
  }

  lemma UtterancesCons(e: Event, rest: seq<Event>)
    ensures Utterances([e] + rest) == Said(e) + Utterances(rest)
  {
    AppendTail([e], rest);
  }

  /** A stream opened by one event is well placed in any trace that starts
      with that event. */
  lemma StepRoutes(reg: Registry, s: GameState, e: Event, tail: seq<string>, x: Effect)
    requires x in Step(reg, s, e).1
    ensures RoutedAt(reg, s.inputs, Said(e) + tail, x)
  {
    ReactionRoutes(reg, s, e, Step(reg, s, e), tail, x);
  }

  /** A stream in a reaction belongs to the utterance that caused it. */
  lemma ReactionRoutes(reg: Registry, s: GameState, e: Event, r: (GameState, seq<Effect>),
                       tail: seq<string>, x: Effect)
    requires Reacts(reg, s, e, r) && x in r.1
    ensures RoutedAt(reg, s.inputs, Said(e) + tail, x)
  {
    if x.Subscribe? {
      var i :| 0 <= i < |r.1| && r.1[i] == x;
      assert e.Utterance? && x.gen == s.inputs + 1 && x.text == e.text;
      assert (Said(e) + tail)[x.gen - s.inputs - 1] == e.text;
    }
  }

  /** A stream well placed after the utterances `said` (none or one) is well
      placed before them. */
  lemma RoutedLift(reg: Registry, n: nat, said: seq<string>, tail: seq<string>, x: Effect)
    requires |said| <= 1
    requires RoutedAt(reg, n + |said|, tail, x)
    ensures RoutedAt(reg, n, said + tail, x)
  {
    if |said| == 1 {
      assert said == [said[0]];
      RoutedShift(reg, n, said[0], tail, x);
    } else {
      assert said == [];
      AppendNil(tail);
    }
  }

  /** Streams well placed before `said` (the streams of `a`) and after it
      (the streams of `b`, counted from `m`) are all well placed in `a + b`. */
  lemma RoutedConcat(reg: Registry, n: nat, said: seq<string>, tail: seq<string>, m: nat,
                     a: seq<Effect>, b: seq<Effect>)
    requires |said| <= 1 && m == n + |said|
    requires forall x :: x in a ==> RoutedAt(reg, n, said + tail, x)
    requires forall i :: 0 <= i < |b| ==> RoutedAt(reg, m, tail, b[i])
    ensures forall i :: 0 <= i < |a + b| ==> RoutedAt(reg, n, said + tail, (a + b)[i])
  {
    forall i | 0 <= i < |a + b|
      ensures RoutedAt(reg, n, said + tail, (a + b)[i])
    {
      IndexAppend(a, b, i);
      if i < |a| {
        assert a[i] in a;
      } else {
        RoutedLift(reg, n, said, tail, b[i - |a|]);
      }
    }
  }

  /** One event counts the utterances it brings. */
  lemma StepCounts(reg: Registry, s: GameState, e: Event)
    ensures Step(reg, s, e).0.inputs == s.inputs + |Said(e)|
  {
  }

  /** Every stream one event opens is well placed in any trace that starts
      with that event. */
  lemma StepRoutesAll(reg: Registry, s: GameState, e: Event, tail: seq<string>)
    ensures forall x :: x in Step(reg, s, e).1 ==> RoutedAt(reg, s.inputs, Said(e) + tail, x)
  {
    forall x | x in Step(reg, s, e).1
      ensures RoutedAt(reg, s.inputs, Said(e) + tail, x)
    {
      StepRoutes(reg, s, e, tail, x);
    }
  }

  /** Every response stream opened during a trace belongs to an utterance at
      position two or later, carries that utterance's text, and goes to the
      first module that accepts it. Positions are counted from `s`. */
  lemma {:induction false} RoutesFollowPositions(reg: Registry, s: GameState, evs: seq<Event>)
    ensures forall i :: 0 <= i < |Run(reg, s, evs).1| ==>
              RoutedAt(reg, s.inputs, Utterances(evs), Run(reg, s, evs).1[i])
    decreases |evs|
  {
    if |evs| > 0 {
      RoutesFollowPositions(reg, Step(reg, s, evs[0]).0, evs[1..]);
      SplitFirst(evs);
      RoutesStep(reg, s, evs[0], evs[1..]);
    }
  }

  /** The inductive step of `RoutesFollowPositions`: streams well placed
      after `e` stay well placed once `e`'s own streams are put in front. */
  lemma RoutesStep(reg: Registry, s: GameState, e: Event, rest: seq<Event>)
    requires forall i :: 0 <= i < |Run(reg, Step(reg, s, e).0, rest).1| ==>
               RoutedAt(reg, Step(reg, s, e).0.inputs, Utterances(rest), Run(reg, Step(reg, s, e).0, rest).1[i])
    ensures forall i :: 0 <= i < |Run(reg, s, [e] + rest).1| ==>
              RoutedAt(reg, s.inputs, Utterances([e] + rest), Run(reg, s, [e] + rest).1[i])
  {
    RunCons(reg, s, e, rest);
    UtterancesCons(e, rest);
    StepCounts(reg, s, e);
    StepRoutesAll(reg, s, e, Utterances(rest));
    RoutedConcat(reg, s.inputs, Said(e), Utterances(rest), Step(reg, s, e).0.inputs,
                 Step(reg, s, e).1, Run(reg, Step(reg, s, e).0, rest).1);
  }

  /** The converse of `RoutesFollowPositions`: an utterance after the first
      that arrives while the output stream is open, and that some module
      accepts, opens the stream of its position with the first such module.
      `p` is the state the utterance finds, so `p.inputs + 1` is its
      position. */
  lemma MatchedUtteranceIsRouted(reg: Registry, s: GameState, pre: seq<Event>, p: GameState,
                                 t: string, post: seq<Event>, m: nat)
    requires p == Run(reg, s, pre).0
    requires p.inputs >= 1 && !p.halted && IsFirstMatch(reg, t, m)
    ensures Subscribe(p.inputs + 1, m, t) in Run(reg, s, pre + ([Utterance(t)] + post)).1
  {
    RoutedAfter(reg, s, pre, p, Utterance(t), post, m);
  }

  /** `MatchedUtteranceIsRouted` for an event known only to be an utterance. */
  lemma RoutedAfter(reg: Registry, s: GameState, pre: seq<Event>, p: GameState, e: Event, rest: seq<Event>, m: nat)
    requires p == Run(reg, s, pre).0
    requires e.Utterance? && p.inputs >= 1 && !p.halted && IsFirstMatch(reg, e.text, m)
    ensures Subscribe(p.inputs + 1, m, e.text) in Run(reg, s, pre + ([e] + rest)).1
  {
    OpensInRun(reg, p, e, rest, m);
    InAppendedRun(reg, s, pre, p, [e] + rest, Subscribe(p.inputs + 1, m, e.text));
  }

  /** An effect of the second part of a trace is an effect of the whole;
      `p` is the state the first part leaves. */
  lemma InAppendedRun(reg: Registry, s: GameState, a: seq<Event>, p: GameState, b: seq<Event>, x: Effect)
    requires p == Run(reg, s, a).0 && x in Run(reg, p, b).1
    ensures x in Run(reg, s, a + b).1
  {
    RunAppend(reg, s, a, b);
  }

  /** A routed utterance at the head of a trace opens its stream in the run. */
  lemma OpensInRun(reg: Registry, s: GameState, e: Event, rest: seq<Event>, m: nat)
    requires e.Utterance? && s.inputs >= 1 && !s.halted && IsFirstMatch(reg, e.text, m)
    ensures Subscribe(s.inputs + 1, m, e.text) in Run(reg, s, [e] + rest).1
  {
    RunCons(reg, s, e, rest);
    ReactionOpens(reg, s, e, Step(reg, s, e), m);
    InFirst(Subscribe(s.inputs + 1, m, e.text), Step(reg, s, e).1, Run(reg, Step(reg, s, e).0, rest).1);
  }

  /** A reaction to a routed utterance opens the stream of its first match. */
  lemma ReactionOpens(reg: Registry, s: GameState, e: Event, r: (GameState, seq<Effect>), m: nat)
    requires Reacts(reg, s, e, r)
    requires e.Utterance? && s.inputs >= 1 && !s.halted && IsFirstMatch(reg, e.text, m)
    ensures Subscribe(s.inputs + 1, m, e.text) in r.1
  {
  }

  lemma InFirst<T>(x: T, a: seq<T>, b: seq<T>)
    requires x in a
    ensures x in a + b
  {
  }

  lemma InSecond<T>(x: T, a: seq<T>, b: seq<T>)
    requires x in b
    ensures x in a + b
  {
  }

  /** The first utterance is never handed to the matcher: every routed text is
      the utterance at the position of its stream, and that position is at
      least two. */
  lemma FirstUtteranceIsNeverRouted(reg: Registry, evs: seq<Event>)
    ensures forall i :: 0 <= i < |Session(reg, evs).1| && Session(reg, evs).1[i].Subscribe? ==>
              var sub := Session(reg, evs).1[i];
              2 <= sub.gen <= |Utterances(evs)| && sub.text == Utterances(evs)[sub.gen - 1]
              && IsFirstMatch(reg, sub.text, sub.responder)
  {
    RoutesFollowPositions(reg, Init, evs);
    SessionEffects(reg, evs);
    RoutedBehindPrompt(reg, Init.inputs, Utterances(evs), Run(reg, Init, evs).1, Session(reg, evs).1);
  }

  /** A session's effects: the prompt, then the run from the initial state. */
  lemma SessionEffects(reg: Registry, evs: seq<Event>)
    ensures Session(reg, evs).1 == [Write(Prompt)] + Run(reg, Init, evs).1
    ensures Init.inputs == 0
  {
  }

  /** Streams well placed from the start stay so behind the prompt. */
  lemma RoutedBehindPrompt(reg: Registry, n: nat, us: seq<string>, run: seq<Effect>, fx: seq<Effect>)
    requires n == 0 && fx == [Write(Prompt)] + run
    requires forall i :: 0 <= i < |run| ==> RoutedAt(reg, n, us, run[i])
    ensures forall i :: 0 <= i < |fx| && fx[i].Subscribe? ==>
              var sub := fx[i];
              2 <= sub.gen <= |us| && sub.text == us[sub.gen - 1]
              && IsFirstMatch(reg, sub.text, sub.responder)
  {
    forall i | 0 <= i < |fx| && fx[i].Subscribe?
      ensures RoutedAt(reg, n, us, fx[i])
    {
      IndexAppend([Write(Prompt)], run, i);
    }
  }

  // ---------------------------------------------------------------------------
  // Switch-to-latest

  /** Whether `e` comes from the response stream of utterance `k`. */
  predicate FromStream(e: Event, k: nat) {
    (e.ResponseValue? || e.ResponseError?) && e.gen == k
  }

  /** A trace with every event from the response stream of utterance `k` removed. */
  function DropStream(evs: seq<Event>, k: nat): (r: seq<Event>)
    ensures forall i :: 0 <= i < |r| ==> !FromStream(r[i], k)
    ensures |r| <= |evs|
  {
    if |evs| == 0 then []
    else (if FromStream(evs[0], k) then [] else [evs[0]]) + DropStream(evs[1..], k)
  }

  /** Once utterance `k + 1` has arrived, whatever the stream of utterance `k`
      still produces, values or an error, changes nothing at all. */
  lemma {:induction false} StaleStreamIsIgnored(reg: Registry, s: GameState, evs: seq<Event>, k: nat)
    requires k < s.inputs
    ensures Run(reg, s, evs) == Run(reg, s, DropStream(evs, k))
    decreases |evs|
  {
    if |evs| > 0 {
      var d := DropStream(evs, k);
      if FromStream(evs[0], k) {
        assert Step(reg, s, evs[0]) == (s, []);
        AppendNil(Run(reg, s, evs[1..]).1);
        AppendNil(DropStream(evs[1..], k));
        StaleStreamIsIgnored(reg, s, evs[1..], k);
      } else {
        AppendTail([evs[0]], DropStream(evs[1..], k));
        StaleStreamIsIgnored(reg, Step(reg, s, evs[0]).0, evs[1..], k);
      }
    }
  }

  /** Switch-to-latest from the start of a session: after a prefix in which
      more than `k` utterances arrived, dropping every later event of the
      stream of utterance `k` leaves the outcome unchanged. */
  lemma SupersededStreamIsSilenced(reg: Registry, pre: seq<Event>, post: seq<Event>, k: nat)
    requires k < |Utterances(pre)|
    ensures Session(reg, pre + post) == Session(reg, pre + DropStream(post, k))
  {
    RunAppend(reg, Init, pre, post);
    RunAppend(reg, Init, pre, DropStream(post, k));
    StaleStreamIsIgnored(reg, Run(reg, Init, pre).0, post, k);
  }

  // ---------------------------------------------------------------------------
  // Filtering and the mute flag

  /** No empty string is ever written or spoken by the computer. */
  lemma {:induction false} RunNeverEmpty(reg: Registry, s: GameState, evs: seq<Event>)
    ensures NoEmptyOutput(Run(reg, s, evs).1)
    decreases |evs|
  {
    if |evs| > 0 {
      RunNeverEmpty(reg, Step(reg, s, evs[0]).0, evs[1..]);
    }
  }

  lemma SessionNeverEmpty(reg: Registry, evs: seq<Event>)
    ensures NoEmptyOutput(Session(reg, evs).1)
  {
    RunNeverEmpty(reg, Init, evs);
  }

  /** An element missing from a non-empty trace is missing from its head
      and from its tail. */
  lemma NotInParts(evs: seq<Event>, x: Event)
    requires |evs| > 0 && x !in evs
    ensures evs[0] != x && x !in evs[1..]
  {
    assert forall e :: e in evs[1..] ==> e in evs;
  }

  /** While muted (and not unmuted), the computer never speaks. */
  lemma {:induction false} MutedRunIsSilent(reg: Registry, s: GameState, evs: seq<Event>)
    requires s.muted
    requires SetMuted(false) !in evs
    ensures Silent(Run(reg, s, evs).1)
    decreases |evs|
  {
    if |evs| > 0 {
      NotInParts(evs, SetMuted(false));
      MutedRunIsSilent(reg, Step(reg, s, evs[0]).0, evs[1..]);
    }
  }

  /** A step that does not mute leaves an unmuted engine unmuted. */
  lemma StepKeepsUnmuted(reg: Registry, s: GameState, e: Event)
    requires !s.muted && e != SetMuted(true)
    ensures !Step(reg, s, e).0.muted
    ensures SpokenBeforeWritten(Step(reg, s, e).1)
  {
  }

  /** The inductive step of `UnmutedRunSpeaks`. */
  lemma UnmutedStep(reg: Registry, s: GameState, e: Event, rest: seq<Event>)
    requires !s.muted && e != SetMuted(true)
    requires SpokenBeforeWritten(Run(reg, Step(reg, s, e).0, rest).1)
    requires Spoken(Run(reg, Step(reg, s, e).0, rest).1) == Written(Run(reg, Step(reg, s, e).0, rest).1)
    ensures SpokenBeforeWritten(Run(reg, s, [e] + rest).1)
    ensures Spoken(Run(reg, s, [e] + rest).1) == Written(Run(reg, s, [e] + rest).1)
  {
    RunCons(reg, s, e, rest);
    StepKeepsUnmuted(reg, s, e);
    SpokenConcat(Step(reg, s, e).1, Run(reg, Step(reg, s, e).0, rest).1);
    WrittenCons(reg, s, e, rest);
    SpokenCons(reg, s, e, rest);
  }

  /** While unmuted (and not muted), every published string is spoken by the
      computer right before it is written, and the computer says nothing
      else. */
  lemma {:induction false} UnmutedRunSpeaks(reg: Registry, s: GameState, evs: seq<Event>)
    requires !s.muted
    requires SetMuted(true) !in evs
    ensures SpokenBeforeWritten(Run(reg, s, evs).1)
    ensures Spoken(Run(reg, s, evs).1) == Written(Run(reg, s, evs).1)
    decreases |evs|
  {
    if |evs| > 0 {
      NotInParts(evs, SetMuted(true));
      StepKeepsUnmuted(reg, s, evs[0]);
      UnmutedRunSpeaks(reg, Step(reg, s, evs[0]).0, evs[1..]);
      SplitFirst(evs);
      UnmutedStep(reg, s, evs[0], evs[1..]);
    }
  }

  /** Two states that differ at most in the mute flag. */
  predicate SameButMute(a: GameState, b: GameState) {
    a.(muted := false) == b.(muted := false)
  }

  /** A trace with every call of `setIsMuted` removed. */
  function DropMute(evs: seq<Event>): (r: seq<Event>)
    ensures forall i :: 0 <= i < |r| ==> !r[i].SetMuted?
  {
    if |evs| == 0 then []
    else (if evs[0].SetMuted? then [] else [evs[0]]) + DropMute(evs[1..])
  }

  lemma StepIgnoresMute(reg: Registry, a: GameState, b: GameState, e: Event)
    requires SameButMute(a, b)
    requires !e.SetMuted?
    ensures SameButMute(Step(reg, a, e).0, Step(reg, b, e).0)
    ensures Written(Step(reg, a, e).1) == Written(Step(reg, b, e).1)
  {
    ReactionIgnoresMute(reg, a, b, e, Step(reg, a, e), Step(reg, b, e));
  }

  /** Two reactions to the same event from states that differ only in the
      mute flag write the same and reach states that differ only in it. */
  lemma ReactionIgnoresMute(reg: Registry, a: GameState, b: GameState, e: Event,
                            ra: (GameState, seq<Effect>), rb: (GameState, seq<Effect>))
    requires SameButMute(a, b) && !e.SetMuted?
    requires Reacts(reg, a, e, ra) && Reacts(reg, b, e, rb)
    ensures SameButMute(ra.0, rb.0)
    ensures Written(ra.1) == Written(rb.1)
  {
    assert Published(a, e) == Published(b, e);
  }

  /** Muting never touches the transcript: from states that differ only in
      the mute flag, a trace writes exactly what the same trace without any
      `setIsMuted` call writes. */
  lemma {:induction false} MuteNeverChangesTranscript(reg: Registry, a: GameState, b: GameState, evs: seq<Event>)
    requires SameButMute(a, b)
    ensures Written(Run(reg, a, evs).1) == Written(Run(reg, b, DropMute(evs)).1)
    decreases |evs|
  {
    if |evs| > 0 {
      var firstA := Step(reg, a, evs[0]);
      var restA := Run(reg, firstA.0, evs[1..]);
      ProjectConcat(firstA.1, restA.1, Transcript);
      if evs[0].SetMuted? {
        assert Written(firstA.1) == [];
        assert DropMute(evs) == DropMute(evs[1..]);
        MuteNeverChangesTranscript(reg, firstA.0, b, evs[1..]);
      } else {
        var d := DropMute(evs);
        assert d[0] == evs[0] && d[1..] == DropMute(evs[1..]);
        var firstB := Step(reg, b, evs[0]);
        var restB := Run(reg, firstB.0, d[1..]);
        ProjectConcat(firstB.1, restB.1, Transcript);
        StepIgnoresMute(reg, a, b, evs[0]);
        MuteNeverChangesTranscript(reg, firstA.0, firstB.0, evs[1..]);
      }
    }
  }

  // ---------------------------------------------------------------------------
  // The end of the merged stream

  /** Once the merged stream has ended, nothing more is ever written or
      said by the computer. */
  lemma {:induction false} HaltedWritesNothing(reg: Registry, s: GameState, evs: seq<Event>)
    requires s.halted
    ensures Written(Run(reg, s, evs).1) == []
    ensures Spoken(Run(reg, s, evs).1) == []
    ensures NoRouting(Run(reg, s, evs).1)
    decreases |evs|
  {
    if |evs| > 0 {
      HaltedWritesNothing(reg, Step(reg, s, evs[0]).0, evs[1..]);
      SplitFirst(evs);
      HaltedStep(reg, s, evs[0], evs[1..]);
    }
  }

  /** The merged stream can only have ended once a second utterance has
      arrived: it ends on a later utterance no module accepts or on an error
      of the live stream, whose generation is at least two. */
  lemma {:induction false} EndsOnlyAfterRouting(reg: Registry, s: GameState, evs: seq<Event>)
    requires s.halted ==> s.inputs >= 2
    ensures Run(reg, s, evs).0.halted ==> Run(reg, s, evs).0.inputs >= 2
    decreases |evs|
  {
    if |evs| > 0 {
      var s1 := Step(reg, s, evs[0]).0;
      assert s1.halted ==> s1.inputs >= 2;
      EndsOnlyAfterRouting(reg, s1, evs[1..]);
    }
  }

  /** In every session, an ended merged stream has seen at least two
      utterances, so the name-capture flow never meets an ended stream. */
  lemma SessionEndsOnlyAfterRouting(reg: Registry, evs: seq<Event>)
    ensures Session(reg, evs).0.halted ==> Session(reg, evs).0.inputs >= 2
  {
    EndsOnlyAfterRouting(reg, Init, evs);
  }

  /** The inductive step of `HaltedWritesNothing`. */
  lemma HaltedStep(reg: Registry, s: GameState, e: Event, rest: seq<Event>)
    requires s.halted
    requires Written(Run(reg, Step(reg, s, e).0, rest).1) == []
    requires Spoken(Run(reg, Step(reg, s, e).0, rest).1) == []
    requires NoRouting(Run(reg, Step(reg, s, e).0, rest).1)
    ensures Written(Run(reg, s, [e] + rest).1) == []
    ensures Spoken(Run(reg, s, [e] + rest).1) == []
    ensures NoRouting(Run(reg, s, [e] + rest).1)
  {
    WrittenCons(reg, s, e, rest);
    SpokenCons(reg, s, e, rest);
    assert Published(s, e) == [];
    RunCons(reg, s, e, rest);
    NoRoutingConcat(Step(reg, s, e).1, Run(reg, Step(reg, s, e).0, rest).1);
  }

  lemma NoRoutingConcat(a: seq<Effect>, b: seq<Effect>)
    requires NoRouting(a) && NoRouting(b)
    ensures NoRouting(a + b)
  {
    forall i | 0 <= i < |a + b|
      ensures !(a + b)[i].Subscribe? && !(a + b)[i].UnhandledError?
    {
      IndexAppend(a, b, i);
    }
  }

  /** After the name, an utterance no module accepts writes and says
      nothing, and neither does anything after it. */
  lemma UnmatchedWritesNothing(reg: Registry, s: GameState, e: Event, post: seq<Event>)
    requires s.inputs >= 1
    requires e.Utterance? && NoMatch(reg, e.text)
    ensures Written(Run(reg, s, [e] + post).1) == []
    ensures Spoken(Run(reg, s, [e] + post).1) == []
  {
    WrittenCons(reg, s, e, post);
    SpokenCons(reg, s, e, post);
    HaltedWritesNothing(reg, Step(reg, s, e).0, post);
  }

  /** Effects that write and say nothing leave what comes before them as
      the whole transcript and the whole of the computer's speech. */
  lemma NothingAfter(a: seq<Effect>, b: seq<Effect>)
    requires Written(b) == [] && Spoken(b) == []
    ensures Written(a + b) == Written(a) && Spoken(a + b) == Spoken(a)
  {
    ProjectConcat(a, b, Transcript);
    ProjectConcat(a, b, ComputerSpeech);
    AppendNil(Written(a));
    AppendNil(Spoken(a));
  }

  /** A second part of a trace that writes and says nothing leaves the
      output of the first part as the output of the whole; `p` is the state
      the first part leaves. */
  lemma NothingAppended(reg: Registry, s: GameState, a: seq<Event>, p: GameState, b: seq<Event>)
    requires p == Run(reg, s, a).0
    requires Written(Run(reg, p, b).1) == [] && Spoken(Run(reg, p, b).1) == []
    ensures Written(Run(reg, s, a + b).1) == Written(Run(reg, s, a).1)
    ensures Spoken(Run(reg, s, a + b).1) == Spoken(Run(reg, s, a).1)
  {
    RunAppend(reg, s, a, b);
    NothingAfter(Run(reg, s, a).1, Run(reg, p, b).1);
  }

  /** From any state, an utterance after the first that no module accepts
      ends all output: the run writes and says exactly what it had before.
      `p` is the state the utterance finds. */
  lemma UnmatchedRunEndsOutput(reg: Registry, s: GameState, pre: seq<Event>, p: GameState,
                               e: Event, post: seq<Event>)
    requires p == Run(reg, s, pre).0 && p.inputs >= 1
    requires e.Utterance? && NoMatch(reg, e.text)
    ensures Written(Run(reg, s, pre + ([e] + post)).1) == Written(Run(reg, s, pre).1)
    ensures Spoken(Run(reg, s, pre + ([e] + post)).1) == Spoken(Run(reg, s, pre).1)
  {
    UnmatchedWritesNothing(reg, p, e, post);
    NothingAppended(reg, s, pre, p, [e] + post);
  }

  /** An utterance after the first that no module accepts ends all output:
      the transcript and the computer's speech of the whole session are
      what they were up to it. */
  lemma UnmatchedUtteranceEndsOutput(reg: Registry, pre: seq<Event>, t: string, post: seq<Event>)
    requires |Utterances(pre)| >= 1
    requires NoMatch(reg, t)
    ensures Written(Session(reg, pre + [Utterance(t)] + post).1) == Written(Session(reg, pre).1)
    ensures Spoken(Session(reg, pre + [Utterance(t)] + post).1) == Spoken(Session(reg, pre).1)
  {
    assert pre + [Utterance(t)] + post == pre + ([Utterance(t)] + post);
    UnmatchedRunEndsOutput(reg, Init, pre, Run(reg, Init, pre).0, Utterance(t), post);
  }

  // ---------------------------------------------------------------------------
  // The voice cache

  /** The number of `getVoices` calls in a trace. */
  function VoiceCalls(evs: seq<Event>): (n: nat)
    ensures n <= |evs|
  {
    if |evs| == 0 then 0
    else (if evs[0].GetVoices? then 1 else 0) + VoiceCalls(evs[1..])
  }

  /** With a filled cache, a reaction keeps the cache, does not ask the
      synthesizer, and answers a `getVoices` call, and nothing else, once
      with the cache. */
  lemma ReactionKeepsCache(reg: Registry, s: GameState, e: Event, r: (GameState, seq<Effect>))
    requires |s.voices| > 0 && Reacts(reg, s, e, r)
    ensures r.0.voices == s.voices && FetchVoices !in r.1
    ensures forall x :: x in r.1 && x.ReturnVoices? ==> x.voices == s.voices
    ensures multiset(r.1)[ReturnVoices(s.voices)] == if e.GetVoices? then 1 else 0
  {
    if e.GetVoices? {
      assert r.1 == [ReturnVoices(s.voices)];
    } else {
      assert ReturnVoices(s.voices) !in r.1;
    }
  }

  /** Once the cache holds voices, the synthesizer is never asked again and
      every `getVoices` call is answered exactly once, with the same list,
      whatever the synthesizer would report. */
  lemma {:induction false} VoiceCacheIsStable(reg: Registry, s: GameState, evs: seq<Event>)
    requires |s.voices| > 0
    ensures Run(reg, s, evs).0.voices == s.voices
    ensures FetchVoices !in Run(reg, s, evs).1
    ensures forall x :: x in Run(reg, s, evs).1 && x.ReturnVoices? ==> x.voices == s.voices
    ensures multiset(Run(reg, s, evs).1)[ReturnVoices(s.voices)] == VoiceCalls(evs)
    decreases |evs|
  {
    if |evs| > 0 {
      ReactionKeepsCache(reg, s, evs[0], Step(reg, s, evs[0]));
      VoiceCacheIsStable(reg, Step(reg, s, evs[0]).0, evs[1..]);
      SplitFirst(evs);
      CacheStep(reg, s, evs[0], evs[1..]);
    }
  }

  /** The inductive step of `VoiceCacheIsStable`. */
  lemma CacheStep(reg: Registry, s: GameState, e: Event, rest: seq<Event>)
    requires |s.voices| > 0 && Step(reg, s, e).0.voices == s.voices
    requires var run := Run(reg, Step(reg, s, e).0, rest);
             && run.0.voices == s.voices
             && FetchVoices !in run.1
             && (forall x :: x in run.1 && x.ReturnVoices? ==> x.voices == s.voices)
             && multiset(run.1)[ReturnVoices(s.voices)] == VoiceCalls(rest)
    ensures var run := Run(reg, s, [e] + rest);
            && run.0.voices == s.voices
            && FetchVoices !in run.1
            && (forall x :: x in run.1 && x.ReturnVoices? ==> x.voices == s.voices)
            && multiset(run.1)[ReturnVoices(s.voices)] == VoiceCalls([e] + rest)
  {
    RunCons(reg, s, e, rest);
    ReactionKeepsCache(reg, s, e, Step(reg, s, e));
    AppendTail([e], rest);
  }

  // ---------------------------------------------------------------------------
  // Worked conversations

  /** What the computer says during a trace, one event at a time. */
  lemma SpokenCons(reg: Registry, s: GameState, e: Event, rest: seq<Event>)
    ensures Spoken(Run(reg, s, [e] + rest).1)
            == (if s.muted then [] else Published(s, e)) + Spoken(Run(reg, Step(reg, s, e).0, rest).1)
  {
    AppendTail([e], rest);
    ProjectConcat(Step(reg, s, e).1, Run(reg, Step(reg, s, e).0, rest).1, ComputerSpeech);
  }

  /** What a trace writes, one event at a time. */
  lemma WrittenCons(reg: Registry, s: GameState, e: Event, rest: seq<Event>)
    ensures Written(Run(reg, s, [e] + rest).1)
            == Published(s, e) + Written(Run(reg, Step(reg, s, e).0, rest).1)
  {
    AppendTail([e], rest);
    ProjectConcat(Step(reg, s, e).1, Run(reg, Step(reg, s, e).0, rest).1, Transcript);
  }

  /** After the name: a command some module accepts and that module's answer. */
  lemma AnsweredAfterName(reg: Registry, s1: GameState, command: Event, answer: Event)
    requires s1.inputs == 1 && !s1.halted
    requires command.Utterance? && !NoMatch(reg, command.text)
    requires answer.ResponseValue? && answer.gen == 2 && answer.text != ""
    ensures Written(Run(reg, s1, [command] + ([answer] + [])).1) == [answer.text]
  {
    var s2 := Step(reg, s1, command).0;
    WrittenCons(reg, s2, answer, []);
    AppendNil(Published(s2, answer));
    WrittenCons(reg, s1, command, [answer] + []);
  }

  /** A name, then a command some module accepts, then that module's answer:
      the transcript is the prompt, the greeting and the answer. */
  lemma AnsweredConversation(reg: Registry, name: string, command: string, answer: string)
    requires !NoMatch(reg, command)
    requires answer != ""
    ensures Written(Session(reg, [Utterance(name), Utterance(command), ResponseValue(2, answer)]).1)
            == [Prompt, Greeting(name), answer]
  {
    var e1, e2, e3 := Utterance(name), Utterance(command), ResponseValue(2, answer);
    var evs := [e1, e2, e3];
    assert evs == [e1] + ([e2] + ([e3] + []));
    var s1 := Step(reg, Init, e1).0;
    AnsweredAfterName(reg, s1, e2, e3);
    var w := Written(Run(reg, Init, evs).1);
    ConsDisplay(Greeting(name), answer, answer);
    ConsDisplay(Prompt, Greeting(name), answer);
    assert w == [Greeting(name), answer] by {
      WrittenCons(reg, Init, e1, [e2] + ([e3] + []));
    }
    assert Written(Session(reg, evs).1) == [Prompt] + w;
  }

  /** A name, then an utterance no module accepts: no chat output, and the
      output stream is closed. */
  lemma UnansweredConversation(reg: Registry, name: string, t: string)
    requires NoMatch(reg, t)
    ensures Written(Session(reg, [Utterance(name), Utterance(t)]).1) == [Prompt, Greeting(name)]
    ensures Session(reg, [Utterance(name), Utterance(t)]).0.halted
    ensures UnhandledError(2) in Session(reg, [Utterance(name), Utterance(t)]).1
  {
    var e1, e2 := Utterance(name), Utterance(t);
    assert [e1, e2] == [e1] + ([e2] + []);
    NameThenUnmatched(reg, e1, e2);
    NameThenUnmatchedRaises(reg, e1, e2);
    ConsDisplay(Prompt, Greeting(name), Greeting(name));
    SessionEffects(reg, [e1, e2]);
    InSecond(UnhandledError(2), [Write(Prompt)], Run(reg, Init, [e1, e2]).1);
  }

  /** The run part of `UnansweredConversation`, for any two utterances. */
  lemma NameThenUnmatched(reg: Registry, e1: Event, e2: Event)
    requires e1.Utterance? && e2.Utterance? && NoMatch(reg, e2.text)
    ensures Written(Run(reg, Init, [e1] + ([e2] + [])).1) == [Greeting(e1.text)]
    ensures Run(reg, Init, [e1] + ([e2] + [])).0.halted
  {
    var s1 := Step(reg, Init, e1).0;
    UnmatchedWritesNothing(reg, s1, e2, []);
    UnmatchedHalts(reg, s1, e2, []);
    WrittenCons(reg, Init, e1, [e2] + []);
    RunCons(reg, Init, e1, [e2] + []);
    AppendNil([Greeting(e1.text)]);
  }

  /** The error part of `UnansweredConversation`: the second utterance's
      empty match list raises the error of generation 2. */
  lemma NameThenUnmatchedRaises(reg: Registry, e1: Event, e2: Event)
    requires e1.Utterance? && e2.Utterance? && NoMatch(reg, e2.text)
    ensures UnhandledError(2) in Run(reg, Init, [e1] + ([e2] + [])).1
  {
    FirstReaction(reg, e1, Step(reg, Init, e1));
    UnmatchedRaises(reg, Step(reg, Init, e1).0, e2, []);
    InLaterRun(reg, Init, e1, [e2] + [], UnhandledError(2));
  }

  /** The first utterance is counted and leaves the merged stream open. */
  lemma FirstReaction(reg: Registry, e: Event, r: (GameState, seq<Effect>))
    requires Reacts(reg, Init, e, r) && e.Utterance?
    ensures r.0.inputs == 1 && !r.0.halted
  {
  }

  /** An effect of the run after the first event is an effect of the whole run. */
  lemma InLaterRun(reg: Registry, s: GameState, e: Event, rest: seq<Event>, x: Effect)
    requires x in Run(reg, Step(reg, s, e).0, rest).1
    ensures x in Run(reg, s, [e] + rest).1
  {
    RunCons(reg, s, e, rest);
    InSecond(x, Step(reg, s, e).1, Run(reg, Step(reg, s, e).0, rest).1);
  }

  /** After the name, an utterance no module accepts ends the merged stream
      for good. */
  lemma UnmatchedHalts(reg: Registry, s: GameState, e: Event, rest: seq<Event>)
    requires s.inputs >= 1
    requires e.Utterance? && NoMatch(reg, e.text)
    ensures Run(reg, s, [e] + rest).0.halted
  {
    RunCons(reg, s, e, rest);
  }

  /** On an open stream, that utterance raises the unhandled error of its
      own generation, the throw of the matcher's empty result. */
  lemma UnmatchedRaises(reg: Registry, s: GameState, e: Event, rest: seq<Event>)
    requires s.inputs >= 1 && !s.halted
    requires e.Utterance? && NoMatch(reg, e.text)
    ensures UnhandledError(s.inputs + 1) in Run(reg, s, [e] + rest).1
  {
    RunCons(reg, s, e, rest);
    ReactionRaises(reg, s, e, Step(reg, s, e));
    InFirst(UnhandledError(s.inputs + 1), Step(reg, s, e).1, Run(reg, Step(reg, s, e).0, rest).1);
  }

  lemma ReactionRaises(reg: Registry, s: GameState, e: Event, r: (GameState, seq<Effect>))
    requires Reacts(reg, s, e, r)
    requires s.inputs >= 1 && !s.halted
    requires e.Utterance? && NoMatch(reg, e.text)
    ensures UnhandledError(s.inputs + 1) in r.1
  {
  }

  /** An answer to the second utterance that arrives after the third is
      dropped, however the modules are set up. */
  lemma LateAnswerIsDropped(reg: Registry, name: string, first: string, second: string, late: string)
    ensures Written(Session(reg, [Utterance(name), Utterance(first), Utterance(second), ResponseValue(2, late)]).1)
            == Written(Session(reg, [Utterance(name), Utterance(first), Utterance(second)]).1)
  {
    LateAnswerAfterThree(reg, Utterance(name), Utterance(first), Utterance(second), ResponseValue(2, late));
  }

  /** `LateAnswerIsDropped` for any three utterances and any value of stream 2. */
  lemma LateAnswerAfterThree(reg: Registry, e1: Event, e2: Event, e3: Event, e4: Event)
    requires e1.Utterance? && e2.Utterance? && e3.Utterance?
    requires e4.ResponseValue? && e4.gen == 2
    ensures Written(Session(reg, [e1, e2, e3, e4]).1) == Written(Session(reg, [e1, e2, e3]).1)
  {
    var pre := [e1, e2, e3];
    assert pre == [e1] + ([e2] + ([e3] + []));
    assert |Utterances(pre)| == 3 by {
      UtterancesCons(e1, [e2] + ([e3] + []));
      UtterancesCons(e2, [e3] + []);
      UtterancesCons(e3, []);
    }
    assert DropStream([e4], 2) == [];
    SupersededStreamIsSilenced(reg, pre, [e4], 2);
    AppendNil(pre);
    SameSessions(reg, [e1, e2, e3, e4], pre + [e4], pre, pre + DropStream([e4], 2));
  }

  lemma SameSessions(reg: Registry, a: seq<Event>, a': seq<Event>, b: seq<Event>, b': seq<Event>)
    requires a == a' && b == b' && Session(reg, a') == Session(reg, b')
    ensures Written(Session(reg, a).1) == Written(Session(reg, b).1)
  {
  }
}

=== FILE: legacy_game.dfy ===
/** The older conversation engine of `src/js/lib/game.ts`. It writes the
    prompt, takes the first input as the user's name and greets it, and
    echoes every later input. Each echo is a single synchronous value, so the
    switch-to-latest operator it sits behind never drops anything, and no
    output is filtered. */
module LegacyGame {
  import opened Common
  import Game

  datatype State = State(inputs: nat, userName: string)

  /** The greeting for the captured name (no trailing period in this engine). */
  function Greeting(name: string): string {
    "Hello, " + name + "!"
  }

  /** The echo of a later input (with two spaces after "You"). */
  function Echo(input: string): string {
    "You  wrote: " + input
  }

  /** One input: the first sets the name and is greeted; every later one is echoed. */
  function Step(s: State, input: string): (r: (State, string))
    ensures r.0.inputs == s.inputs + 1
    ensures r.0.userName == if s.inputs == 0 then input else s.userName
  {
    if s.inputs == 0 then (State(1, input), Greeting(input))
    else (s.(inputs := s.inputs + 1), Echo(input))
  }

  /** A sequence of inputs from a given state: one output per input. */
  function Run(s: State, inputs: seq<string>): (r: (State, seq<string>))
    ensures r.0.inputs == s.inputs + |inputs|
    ensures |r.1| == |inputs|
    decreases |inputs|
  {
    if |inputs| == 0 then (s, [])
    else
      var first := Step(s, inputs[0]);
      var rest := Run(first.0, inputs[1..]);
      (rest.0, [first.1] + rest.1)
  }

  /** `start()` and then the inputs; `initialName` is whatever name the user
      object held before. */
  function Session(initialName: string, inputs: seq<string>): (r: (State, seq<string>))
    ensures |r.1| == |inputs| + 1 && r.1[0] == Prompt
  {
    var run := Run(State(0, initialName), inputs);
    (run.0, [Prompt] + run.1)
  }

  /** `greet()`: reads the name and changes nothing. */
  function Greet(s: State): (r: string)
    ensures |r| == |s.userName| + 6 && r[..6] == "Hello " && r[6..] == s.userName
    ensures r != Greeting(s.userName)
  {
    "Hello " + s.userName
  }

  /** The transcript the engine promises, stated without its state machine:
      the prompt, then the greeting for the first input, then one echo per
      later input, in order. */
  function Transcript(inputs: seq<string>): seq<string> {
    [Prompt]
    + (if |inputs| == 0 then []
       else [Greeting(inputs[0])] + seq(|inputs| - 1, i requires 0 <= i < |inputs| - 1 => Echo(inputs[i + 1])))
  }

  /** Once the name is taken, every input is echoed, in order. */
  lemma {:induction false} LaterInputsAreEchoed(s: State, inputs: seq<string>)
    requires s.inputs > 0
    ensures Run(s, inputs).1 == seq(|inputs|, i requires 0 <= i < |inputs| => Echo(inputs[i]))
    ensures Run(s, inputs).0.userName == s.userName
    decreases |inputs|
  {
    if |inputs| > 0 {
      var first := Step(s, inputs[0]);
      LaterInputsAreEchoed(first.0, inputs[1..]);
      var echoes := seq(|inputs|, i requires 0 <= i < |inputs| => Echo(inputs[i]));
      assert echoes == [Echo(inputs[0])] + seq(|inputs| - 1, i requires 0 <= i < |inputs| - 1 => Echo(inputs[1..][i]));
    }
  }

  /** The state machine writes exactly the promised transcript. */
  lemma SessionMatchesTranscript(initialName: string, inputs: seq<string>)
    ensures Session(initialName, inputs).1 == Transcript(inputs)
  {
    if |inputs| > 0 {
      var first := Step(State(0, initialName), inputs[0]);
      LaterInputsAreEchoed(first.0, inputs[1..]);
      var later := seq(|inputs| - 1, i requires 0 <= i < |inputs| - 1 => Echo(inputs[i + 1]));
      assert later == seq(|inputs[1..]|, i requires 0 <= i < |inputs[1..]| => Echo(inputs[1..][i]));
    }
  }

  /** The name is the first input, and only the first input; without input
      it is whatever the user object held. */
  lemma NameIsFirstInput(initialName: string, inputs: seq<string>)
    ensures Session(initialName, inputs).0.userName == if |inputs| > 0 then inputs[0] else initialName
  {
    if |inputs| > 0 {
      LaterInputsAreEchoed(Step(State(0, initialName), inputs[0]).0, inputs[1..]);
    }
  }

  /** `greet()` after a session greets the captured name. */
  lemma GreetAfterSession(initialName: string, inputs: seq<string>)
    requires |inputs| > 0
    ensures Greet(Session(initialName, inputs).0) == "Hello " + inputs[0]
  {
    NameIsFirstInput(initialName, inputs);
  }

  /** Every input from the second on produces exactly one output, its echo,
      even when the input is empty; the first input is never echoed. */
  lemma EveryLaterInputEchoedOnce(initialName: string, inputs: seq<string>)
    ensures |Session(initialName, inputs).1| == |inputs| + 1
    ensures forall k :: 1 <= k < |inputs| ==> Session(initialName, inputs).1[k + 1] == Echo(inputs[k])
    ensures |inputs| > 0 ==> Session(initialName, inputs).1[1] == Greeting(inputs[0])
    ensures forall k :: 1 <= k < |inputs| && inputs[k] == "" ==> Session(initialName, inputs).1[k + 1] == "You  wrote: "
  {
    SessionMatchesTranscript(initialName, inputs);
  }

  /** The two engines greet differently: the newer one adds a period. */
  lemma GreetingsDiffer(name: string)
    ensures Greeting(name) + "." == Game.Greeting(name)
    ensures Greeting(name) != Game.Greeting(name)
  {
  }
}

=== FILE: responders.dfy ===
/** The responder registry as the conversation engine sees it: an ordered
    list of modules, each with a pure `canHandle` predicate. What a module
    answers is outside the model; its replies reach the engine as events. */
module Responders {
  import opened Common

  /** One responder module: a name for reference and its `canHandle` test. */
  datatype Responder = Responder(name: string, canHandle: string -> bool)

  /** Registration order is priority order. */
  type Registry = seq<Responder>

  /** `m` is the first module, in registry order, that accepts `t`. */
  predicate IsFirstMatch(reg: Registry, t: string, m: nat) {
    && m < |reg|
    && reg[m].canHandle(t)
    && forall j :: 0 <= j < m ==> !reg[j].canHandle(t)
  }

  /** No registered module accepts `t`. */
  predicate NoMatch(reg: Registry, t: string) {
    forall j :: 0 <= j < |reg| ==> !reg[j].canHandle(t)
  }

  /** The indices from `i` on of the modules that accept `t`, in registry order. */
  function MatchesFrom(reg: Registry, t: string, i: nat): (r: seq<nat>)
    requires i <= |reg|
    ensures forall j :: j in r <==> i <= j < |reg| && reg[j].canHandle(t)
    ensures forall a, b :: 0 <= a < b < |r| ==> r[a] < r[b]
    decreases |reg| - i
  {
    if i == |reg| then []
    else
      var rest := MatchesFrom(reg, t, i + 1);
      if reg[i].canHandle(t) then
        assert forall b :: 0 <= b < |rest| ==> rest[b] in rest;
        [i] + rest
      else rest
  }

  /** The matcher: every module willing to handle `t`, in registry order. */
  function Matches(reg: Registry, t: string): (r: seq<nat>)
    ensures forall j :: j in r <==> 0 <= j < |reg| && reg[j].canHandle(t)
    ensures forall a, b :: 0 <= a < b < |r| ==> r[a] < r[b]
  {
    MatchesFrom(reg, t, 0)
  }

  /** The module the engine routes `t` to: the head of the match list,
      absent when the list is empty. */
  function FirstResponder(reg: Registry, t: string): (r: Option<nat>)
    ensures r.Some? ==> IsFirstMatch(reg, t, r.value)
    ensures r.None? <==> NoMatch(reg, t)
  {
    var ms := Matches(reg, t);
    if |ms| == 0 then None
    else assert ms[0] in ms; Some(ms[0])
  }

  /** At most one module is the first to accept a text. */
  lemma FirstMatchUnique(reg: Registry, t: string, m: nat)
    requires IsFirstMatch(reg, t, m)
    ensures forall n :: IsFirstMatch(reg, t, n) ==> n == m
  {
  }
}
